=== FILE: README.md ===
# Roll-cutting planner: the bookkeeping of the desktop front end

The planner cuts paper rolls for corrugated-board orders. Its window
(`ui.py`) is built around a handful of pure helpers. This project models
those helpers in Dafny and proves what they promise:

- **Stock grouping** (`update_stock_data`): the cleaned stock table is folded
  into `ROLL_SPECS`. That is width → material → roll number 1..n → (id,
  length). The widths stay in the order they were first met, except that a
  reload grouping to the same dict keeps the current `ROLL_SPECS`, and with it
  the current width order.
- **Settings to try** (`get_all_suggestions`, `calculate_length_for_suggestion`):
  for every grouped order spec, the stocked widths that carry all of its
  materials, sorted by the number formed from the width's digits. A setting
  gets length 0 ("cannot serve") or the fixed length 1000000000, or the
  check raises a `TypeError` when a roll it reaches has no length.
- **Results table** (`append_results_to_table`): the best result (lowest trim)
  of each order number, the rows shown with or without the unprocessed ones,
  and each row's colour: red for an invalid row, yellow for a row that is not
  its order's best, none otherwise. Also the demand-per-cut cell.
- **Per-layer demand** (the CSV export and the details popup): the demand per
  cut spread over the five layers (front liner, C flute, middle liner, B
  flute, back liner) using the take-up of the flute types C, B and E.
- **Roll-usage traces** (`_format_roll_usage_for_csv`, `_format_roll_usage_to_html`):
  the allocator's text `-> status: R1 (ยาว 1000 ม., เหลือ 600 ม.) + ...` is
  read with the regular expression of the source, one roll per `" + "` piece.
- **Thai digits** (`convert_thai_digits_to_arabic`).

## Modules

- `Options`: `Option`.
- `Text`, `TextFacts`: the parts of Python's `str` these helpers use:
  `strip` (with the exact `isspace` set), `in`, `find`, `split`, `split(sep, 1)`,
  `join`, `replace(pat, '')`, and decimal digits.
- `ThaiDigits`: the translation table.
- `RollUsage`: the trace pattern as a staged matcher with the lazy `(.+?)`
  search, and both formatters. The HTML formatter is modelled as the
  structure it renders (as-is text, italic text, or status over a table of
  rows), without the markup.
- `RollUsageFacts`: the allocator's printing of a roll and of a trace, and
  the round trips through the readers.
- `Layers`: the five layers of a board. `LayerDemand`: the demand table.
- `Stock`: `update_stock_data` and the predicate `Grouped` that says exactly
  which `ROLL_SPECS` a table must give.
- `Suggestions`: the subset test, the key sort and the length check.
- `Results`: best per order, filter, colours, demand per cut.

Some behaviour of the source is worth knowing when reading the model:

- A stock row with a blank roll size is still grouped, under the width `""`.
  `calculate_length_for_suggestion` then refuses every setting at that width
  (`Suggestions.GroupedSuggestionsFeasible`).
- In `_format_roll_usage_to_html` the branch for an empty `table_rows` can
  never run: splitting always gives at least one piece
  (`RollUsage.FormatRollUsageToHtml`).
- The length cell of a stock row is stored unconverted. A roll with an empty
  length makes `calculate_length_for_suggestion` raise a `TypeError` in `min`
  or `*`, and its caller at ui.py:645 does not catch it
  (`Suggestions.CalculateLengthForSuggestion`). With every length present it
  never raises (`Suggestions.GroupedSuggestionsLength`).
- In the CSV demand table the `if type_demand > 0` guards always hold,
  because the multiplier is at least 1 (`LayerDemand.Multiplier`).

## Model

| member | source | states |
|---|---|---|
| ThaiDigits.Translate | ui.py:1175-1177 | A Thai digit ๐..๙ becomes the ASCII digit of the same value; every other character is left alone |
| ThaiDigits.ConvertThaiDigitsToArabic | ui.py:1173-1178 | The text keeps its length and each character is translated on its own, position by position |
| ThaiDigits.ConvertIdempotent | ui.py:1173-1178 | Converting twice gives the same text as converting once |
| ThaiDigits.ConvertKeepsValue | ui.py:1173-1178 | A run of digits stays a run of digits and `int()` reads the same number before and after conversion |
| Text.Split | ui.py:1060 | `split(' + ')` gives at least one piece, and joining the pieces with the separator gives back the text |
| Text.SplitOnce | ui.py:1053-1058 | `split(': ', 1)` has two parts exactly when the separator occurs; the text is head + separator + rest, and the head holds no separator |
| TextFacts.SplitJoin | ui.py:1060 | Pieces that lack a character of the separator, joined and split again, come back unchanged |
| RollUsage.MatchRollIsLazy | ui.py:1062-1066 | The match succeeds exactly when some end of group 1 (no newline, at least one character) lets the rest of the pattern match, and it reads the least such end |
| RollUsage.LazyFromFindsFirst | ui.py:1062-1066 | The search from position k finds the least matching end at or after k, or reports that none exists |
| RollUsage.FormatRollUsageToHtml | ui.py:995-1043 | A text without `->` comes back as is; a trace holding `(ไม่มี` comes back in italics with every `-> ` removed and nothing stripped; any other as-is result is the text exactly as given; the status-only fallback never happens, since a table always has at least one row |
| RollUsage.ReadTrace | ui.py:1047-1060 | Which branch a trace takes (no `->`, `(ไม่มี`, no `": "`, itemised); an itemised trace always has at least one segment. What the itemised reading means is stated by the round trip `RollUsageFacts.ReadTraceShow` |
| RollUsage.MatchRoll | ui.py:1062-1066 | The pattern match of one stripped piece; stated by `RollUsage.MatchRollIsLazy` (lazy group 1) and `RollUsageFacts.MatchRollShow` (round trip) |
| RollUsage.ReadSegment | ui.py:1065-1080 | One piece read as a roll row or as incomplete data; stated by the round trips `RollUsageFacts.ReadSegmentShow` and `RollUsageFacts.MatchRollShow` |
| RollUsage.FormatRollUsageForCsv | ui.py:1045-1082 | The CSV text of a trace; stated by `RollUsageFacts.CsvNoArrow` (text without `->`), the round trip `RollUsageFacts.CsvShowTrace`, and `RollUsageFacts.HtmlMirrorsCsv` (agreement with the HTML formatter) |
| RollUsageFacts.MatchRollShow | ui.py:1062-1076 | A roll printed in the allocator's form matches the pattern with its own id, original length and remaining length (0 for `ใช้หมด`) |
| RollUsageFacts.NoEarlyMatch | ui.py:1062-1066 | Group 1 cannot end inside a plain roll id: the rest of the pattern fails there |
| RollUsageFacts.ReadSegmentShow | ui.py:1065-1076 | Round trip: printing a roll and reading the piece back gives the same roll |
| RollUsageFacts.TraceHeader | ui.py:1053-1058 | A printed trace is cut at the `": "` after its status, leaving the joined roll pieces |
| RollUsageFacts.StatusBack | ui.py:1057 | The status of a printed trace reads back unchanged after removing `-> ` and stripping |
| RollUsageFacts.ReadTraceShow | ui.py:1045-1076 | Round trip: a printed trace reads back as its status and exactly its rolls, in order |
| RollUsageFacts.CsvNoArrow | ui.py:1047-1048 | A trace without `->` is only stripped |
| RollUsageFacts.CsvShowTrace | ui.py:1045-1082 | The CSV text of a printed trace is its status line and then one row line per roll, in order |
| RollUsageFacts.HtmlMirrorsCsv | ui.py:995-1082 | Both formatters read a trace the same way: an itemised trace is the same status and segments in the HTML table and the CSV lines; a text without `->` or without a header is returned as is by the HTML one; for a roll not in stock both drop every `-> `, the HTML one in italics and the CSV one stripped |
| Layers.Materials | ui.py:563 | The materials of a spec are exactly its non-empty layer names |
| LayerDemand.Multiplier | ui.py:905-911 | The multiplier lies between 1 and 1.45 |
| LayerDemand.MultiplierIsLargestFlute | ui.py:905-911 | The C-then-B-then-E choice is the larger of the C-slot take-up (C or E, else 1) and the B-slot take-up (B or E, else 1) |
| LayerDemand.LinerCell | ui.py:914-920 | A liner cell is filled exactly when its material is set, and its value times the multiplier is the demand per cut |
| LayerDemand.CCell | ui.py:923-936 | The C cell is filled exactly when the C material is set and the C slot holds a C or E flute |
| LayerDemand.BCell | ui.py:948-964 | The B cell is filled exactly when the B material is set and the B slot holds a B or E flute |
| LayerDemand.CsvValues | ui.py:914-974 | The five value cells of a CSV row, in layer order; stated by `LayerDemand.LinerCell`, `CCell`, `BCell` and `FluteCellsScaleLiner` |
| LayerDemand.FluteCellsScaleLiner | ui.py:905-974 | Every filled flute cell is the liner value times that flute's take-up, and every filled liner cell is the liner value |
| LayerDemand.PopupMatchesCsv | ui.py:1117-1158 | The popup lists a paragraph for exactly the layers whose CSV cell is filled, in the same order, with the same material and value |
| LayerDemand.PopupEntries | ui.py:1117-1158 | The material paragraphs of the popup, in order; stated by `LayerDemand.PopupMatchesCsv` and `PopupLabels` |
| LayerDemand.PopupLabels | ui.py:1132-1154 | An E flute is headed `ลอน E` in either slot; a C or B flute is headed by its own name |
| Stock.Numbered | ui.py:447-452 | The keys of one material's dict are exactly 1..n and key k holds the k-th roll |
| Stock.Insert | ui.py:431-452 | One pass of the row loop; stated by `Stock.InsertFiles`, `InsertGrouped` and `BlankRowIgnored` |
| Stock.InsertFiles | ui.py:441-452 | A kept row's roll goes under the next key of its width and material |
| Stock.InsertGrouped | ui.py:431-452 | One pass of the loop keeps the grouping exact for the rows read so far |
| Stock.BlankRowIgnored | ui.py:432-435 | A row whose stripped roll number is blank changes nothing |
| Stock.GroupedWidthsDistinct | ui.py:441-442 | Grouped stock lists each width once, as the keys of a dict |
| Stock.GroupedUnique | ui.py:424-452 | The grouping is determined by the rows: two stocks that group the same rows are equal |
| Stock.NoKeptRowsNoStock | ui.py:424-435 | A table without a usable roll number gives an empty `ROLL_SPECS` |
| Stock.FoldRows | ui.py:431-452 | The loop over the rows produces the grouping of all of them |
| Stock.UpdateStockData | ui.py:422-464 | The reloaded grouping replaces the current `ROLL_SPECS` only when the two differ as dicts (width order ignored); otherwise the current stock, with its width order, is kept. No table or a missing required column reloads as an empty `ROLL_SPECS`; otherwise the reloaded grouping is exactly that of the stripped rows: every kept row present, keys 1..n in row order, nothing else, widths listed once in first-row order |
| Suggestions.Unique | ui.py:476-477 | The `Counter` keys are exactly the non-empty materials, each once |
| Suggestions.CalculateLengthForSuggestion | ui.py:466-506 | A returned length is 0 or 1000000000. It raises exactly when, walking the materials in first-appearance order, it meets a stocked material with a roll that has no length before any material without rolls. It returns 1000000000 exactly when the width is non-blank and stocked, the spec uses a material, every material has a non-empty roll dict at that width, and all those rolls have lengths |
| Suggestions.SortKeyOfNumber | ui.py:575 | The key of a width written as a number is that number |
| Suggestions.SortKey | ui.py:575 | The sort key: the number formed by the width's digits, 0 when it has none; stated by `Suggestions.SortKeyOfNumber` |
| Suggestions.SortByKey | ui.py:575 | `sorted` by that key; stated by `Suggestions.SortPerm`, `SortSorted` and `SortStable` |
| Suggestions.SortPerm | ui.py:575 | The sort is a permutation of the widths |
| Suggestions.SortSorted | ui.py:575 | The sorted widths are in ascending key order |
| Suggestions.SortStable | ui.py:575 | The sort is stable: the widths that share a key keep their stock order |
| Suggestions.AvailableWidths | ui.py:568-572 | The widths kept are exactly the stocked widths whose materials include the spec's |
| Suggestions.ForSpec | ui.py:563-579 | The settings of one spec; stated by `Suggestions.ForSpecOrder` and `ForSpecMembers` |
| Suggestions.GetAllSuggestions | ui.py:562-579 | The settings of all specs, spec by spec; stated by `Suggestions.SuggestionsSound` and `SuggestionsComplete` |
| Suggestions.ForSpecOrder | ui.py:568-579 | One spec's settings are a permutation of the available widths, ascending by key, ties in stock order; when the stock lists each width once (as grouped stock does, `Stock.GroupedWidthsDistinct`), so do the settings |
| Suggestions.ForSpecMembers | ui.py:562-579 | A spec's settings are that spec at exactly the stocked widths that carry it, and none when it uses no material |
| Suggestions.SuggestionsSound | ui.py:562-579 | Every setting comes from a listed spec that uses a material, at a stocked width that carries all of its materials |
| Suggestions.SuggestionsComplete | ui.py:562-579 | Every listed spec that uses a material is tried at every stocked width that carries it |
| Suggestions.GroupedSuggestionsFeasible | ui.py:466-506 | On grouped stock, a generated setting passes the stock test of the length check exactly when its width is non-blank |
| Suggestions.GroupedSuggestionsLength | ui.py:466-506 | On stock grouped from a table whose kept rows all have lengths, the length check never raises, and returns 1000000000 exactly for the settings whose width is non-blank |
| Results.ConsiderStep | ui.py:739-758 | One pass of the loop extends the best map from the first i results to the first i + 1 |
| Results.Consider | ui.py:739-758 | One pass of the best-result loop; stated by `Results.ConsiderStep` |
| Results.BestPerOrder | ui.py:737-758 | An order is mapped exactly when some result of it has a finite trim; it maps to its lowest-trim result, the earliest one on a tie |
| Results.BestUnique | ui.py:737-758 | Each order has only one best result |
| Results.BestMapUnique | ui.py:737-761 | Only one map meets that description |
| Results.DisplayIndices | ui.py:763-767 | The rows shown are all results, or those not marked `Failed/Infeasible` when the checkbox is off, in their original order |
| Results.RowShade | ui.py:773-811 | The colour of a row; stated by `Results.PlainRowIsBest`, `BestNotYellow`, `UncountedNeverPlain` and `HiddenUnprocessed` |
| Results.PlainRowIsBest | ui.py:773-811 | An uncoloured row is the best result of its order |
| Results.BestNotYellow | ui.py:773-811 | An order's best row is never yellow, and it is red exactly when it lacks a roll or is unprocessed |
| Results.UncountedNeverPlain | ui.py:739-811 | A result without an order number or without a finite trim is always coloured |
| Results.HiddenUnprocessed | ui.py:764-811 | With the checkbox off, a shown row is red exactly when one of its layers has no suitable roll |
| Results.DemandPerCut | ui.py:784-790 | The cell has a value exactly when there are cuts and a quantity, and that value times the cuts is the quantity |

## Left out

- The MILP model and the roll allocator. The solver behind `run_next_calculation`, and the toy linear program in `main.py`, are calls into PuLP and are not part of this model.
- The Qt window, worker threads, dialogs, the progress bar and the log. This includes the time stamp in `update_stock_data`, which reads the clock.
- `stock.py`, `cleaning.py` and `check_encode.py`. The model starts from their output: a stock table and a list of grouped order specs.
- The Polars steps of `get_all_suggestions`: the factory filter, `fill_null`, stripping, and the `group_by ... count` that orders the specs. `Suggestions.GetAllSuggestions` takes the grouped specs as a list, in whatever order that step produced.
- Writing the CSV file, the HTML markup, and the `:.2f`, `:.4f` and `:,` number formatting. Values are kept as reals and integers.
- `\d` and `int()` accept every Unicode decimal digit. The model covers the ASCII and Thai digits only.
- Suggestions.CalculateLengthForSuggestion: the minimum roll length and the effective lengths are left out. The source computes them but returns the constant 1000000000 in their place. The lengths matter only through whether one is missing, which makes `min` or `*` raise. A float or text length column behaves like a whole-number one there, since Polars gives a column one type; mixed types in one column are not modelled.
- Stock.UpdateStockData: an exception raised while reading the table is left out. In the source it leaves `ROLL_SPECS` unchanged. The size, type and roll-number cells are taken as already converted by `str(...)`, so a missing cell's `"None"` is an ordinary string here. The length cell is stored as read: a whole number, or `None` for an empty cell.
- Results.BestPerOrder: a trim that is missing, not a number, infinite or NaN is modelled as `None`. Every one of these is never below another trim. A trim of negative infinity is not modelled.
- Results.BestPerOrder: results are identified by their index rather than by `id()` of the dict. This is the same distinction `id()` draws.
- The sort of the results by roll width in `run_next_calculation`, and the accumulation of `results_data` across runs.
- LayerDemand.LinerCell: the `type_demand > 0` guard is not modelled. The multiplier is always at least 1.
- The per-layer roll-info column of the demand table and popup is not modelled inside `LayerDemand`. It is the trace formatter output, modelled in `RollUsage`.

=== FILE: layer_demand.dfy ===
/**
 * The per-layer demand figures of a cut result, as the CSV export
 * (`export_results_to_csv`) and the detail popup (`show_row_details_popup`)
 * each compute them. A flute layer takes up more paper than a liner of the
 * same length: the C flute 1.45 times, the B flute 1.35 times, an E flute
 * 1.25 times. The demand per cut is spread over the layers by dividing it by
 * the take-up of the largest flute present, and scaling it back up for the
 * flute layers.
 */
module LayerDemand {
  import opened Options
  import opened Layers

  const CTakeUp: real := 1.45
  const BTakeUp: real := 1.35
  const ETakeUp: real := 1.25

  /** What the table needs of one cut result; an absent material is `""`, an absent demand 0. */
  datatype DemandRow = DemandRow(materials: Layers<string>, cType: string, bType: string, demandPerCut: real)

  /** `type_demand`: the C flute first, then the B flute, then an E flute in either slot, else 1. */
  function Multiplier(cType: string, bType: string): (m: real)
    ensures 1.0 <= m <= CTakeUp
  {
    if cType == "C" then CTakeUp
    else if bType == "B" then BTakeUp
    else if cType == "E" || bType == "E" then ETakeUp
    else 1.0
  }

  /** The take-up of the flute in the C slot: `C` or `E`; 1 for anything else. */
  function CSlotTakeUp(cType: string): real {
    if cType == "C" then CTakeUp else if cType == "E" then ETakeUp else 1.0
  }

  /** The take-up of the flute in the B slot: `B` or `E`; 1 for anything else. */
  function BSlotTakeUp(bType: string): real {
    if bType == "B" then BTakeUp else if bType == "E" then ETakeUp else 1.0
  }

  function Max(x: real, y: real): real {
    if x < y then y else x
  }

  /** The multiplier is the larger of the C-slot take-up (C or E) and the B-slot take-up (B or E). */
  lemma MultiplierIsLargestFlute(cType: string, bType: string)
    ensures Multiplier(cType, bType) == Max(CSlotTakeUp(cType), BSlotTakeUp(bType))
  {
  }

  /** The demand of one liner layer: the demand per cut over the multiplier. */
  function LinerValue(r: DemandRow): real {
    r.demandPerCut / Multiplier(r.cType, r.bType)
  }

  /** A liner layer's CSV cell: blank for an absent material, else the liner value. */
  function LinerCell(material: string, r: DemandRow): (v: Option<real>)
    ensures v.Some? <==> material != ""
    ensures v.Some? ==> v.value * Multiplier(r.cType, r.bType) == r.demandPerCut
  {
    if material != "" then Some(LinerValue(r)) else None
  }

  /** The C-flute CSV cell: the demand for `C`, the demand scaled from B to E for `E` under a B flute, blank otherwise. */
  function CCell(r: DemandRow): (v: Option<real>)
    ensures v.Some? <==> r.materials.c != "" && (r.cType == "C" || r.cType == "E")
  {
    if r.materials.c == "" then None
    else if r.cType == "C" then Some(r.demandPerCut)
    else if r.cType == "E" then
      if r.bType == "B" then Some(r.demandPerCut / 1.35 * 1.25) else Some(r.demandPerCut)
    else None
  }

  /** The B-flute CSV cell: for `B` or `E`, the demand, scaled down from C when a C flute is present; blank otherwise. */
  function BCell(r: DemandRow): (v: Option<real>)
    ensures v.Some? <==> r.materials.b != "" && (r.bType == "B" || r.bType == "E")
  {
    if r.materials.b == "" then None
    else if r.bType == "B" then
      if r.cType == "C" then Some(r.demandPerCut / 1.45 * 1.35) else Some(r.demandPerCut)
    else if r.bType == "E" then
      if r.cType == "C" then Some(r.demandPerCut / 1.45 * 1.25) else Some(r.demandPerCut)
    else None
  }

  /** The five value cells of one CSV row (`None` for a blank cell), in layer order. */
  function CsvValues(r: DemandRow): Layers<Option<real>> {
    Layers(LinerCell(r.materials.front, r), CCell(r), LinerCell(r.materials.middle, r),
           BCell(r), LinerCell(r.materials.back, r))
  }

  /**
   * The design behind the table: every filled flute cell is the liner value
   * times the take-up of that flute, and every filled liner cell is the liner
   * value, so the five figures are consistent with one length of board.
   */
  lemma {:induction false} FluteCellsScaleLiner(r: DemandRow)
    ensures CCell(r).Some? ==> CCell(r).value == LinerValue(r) * CSlotTakeUp(r.cType)
    ensures BCell(r).Some? ==> BCell(r).value == LinerValue(r) * BSlotTakeUp(r.bType)
    ensures forall v :: v in [CsvValues(r).front, CsvValues(r).middle, CsvValues(r).back] && v.Some? ==> v.value == LinerValue(r)
  {
    var d, m := r.demandPerCut, Multiplier(r.cType, r.bType);
    assert LinerValue(r) * m == d;
  }

  /** One material paragraph of the popup: its heading, the material and its value. */
  datatype Entry = Entry(heading: string, material: string, value: real)

  /** The popup paragraphs of the C slot: none unless the material is set and the type is `C` or `E`. */
  function PopupC(r: DemandRow): seq<Entry> {
    var m, d := r.materials.c, r.demandPerCut;
    if m == "" then []
    else if r.cType == "C" then [Entry("ลอน C", m, d)]
    else if r.cType == "E" then [Entry("ลอน E", m, if r.bType == "B" then d / 1.35 * 1.25 else d)]
    else []
  }

  /** The popup paragraphs of the B slot: none unless the material is set and the type is `B` or `E`. */
  function PopupB(r: DemandRow): seq<Entry> {
    var m, d := r.materials.b, r.demandPerCut;
    if m == "" then []
    else if r.bType == "B" then [Entry("ลอน B", m, if r.cType == "C" then d / 1.45 * 1.35 else d)]
    else if r.bType == "E" then [Entry("ลอน E", m, if r.cType == "C" then d / 1.45 * 1.25 else d)]
    else []
  }

  /** The popup paragraph of a liner layer, if its material is set. */
  function PopupLiner(heading: string, material: string, r: DemandRow): seq<Entry> {
    if material != "" then [Entry(heading, material, r.demandPerCut / Multiplier(r.cType, r.bType))] else []
  }

  /** The material paragraphs of `show_row_details_popup`, in the order it writes them. */
  function PopupEntries(r: DemandRow): seq<Entry> {
    PopupLiner("แผ่นหน้า", r.materials.front, r) + PopupC(r) + PopupLiner("แผ่นกลาง", r.materials.middle, r)
    + PopupB(r) + PopupLiner("แผ่นหลัง", r.materials.back, r)
  }

  /** A material and its filled value cell, if the cell is filled. */
  function Filled(material: string, v: Option<real>): seq<(string, real)> {
    if v.Some? then [(material, v.value)] else []
  }

  /** The (material, value) pairs of the filled CSV cells, in layer order. */
  function FilledCells(r: DemandRow): seq<(string, real)> {
    var v := CsvValues(r);
    Filled(r.materials.front, v.front) + Filled(r.materials.c, v.c) + Filled(r.materials.middle, v.middle)
    + Filled(r.materials.b, v.b) + Filled(r.materials.back, v.back)
  }

  function Pairs(es: seq<Entry>): (r: seq<(string, real)>)
    ensures |r| == |es|
    ensures forall i :: 0 <= i < |es| ==> r[i] == (es[i].material, es[i].value)
  {
    if es == [] then [] else [(es[0].material, es[0].value)] + Pairs(es[1..])
  }

  lemma PairsConcat(a: seq<Entry>, b: seq<Entry>)
    ensures Pairs(a + b) == Pairs(a) + Pairs(b)
  {
  }

  /**
   * The popup and the CSV export agree: the popup shows a paragraph for
   * exactly the layers whose CSV value cell is filled, in the same order,
   * with the same material and the same value.
   */
  lemma PopupMatchesCsv(r: DemandRow)
    ensures Pairs(PopupEntries(r)) == FilledCells(r)
  {
    var v := CsvValues(r);
    var f := PopupLiner("แผ่นหน้า", r.materials.front, r);
    var mid := PopupLiner("แผ่นกลาง", r.materials.middle, r);
    var bk := PopupLiner("แผ่นหลัง", r.materials.back, r);
    assert Pairs(f) == Filled(r.materials.front, v.front);
    assert Pairs(PopupC(r)) == Filled(r.materials.c, v.c);
    assert Pairs(mid) == Filled(r.materials.middle, v.middle);
    assert Pairs(PopupB(r)) == Filled(r.materials.b, v.b);
    assert Pairs(bk) == Filled(r.materials.back, v.back);
    PairsConcat(f, PopupC(r));
    PairsConcat(f + PopupC(r), mid);
    PairsConcat(f + PopupC(r) + mid, PopupB(r));
    PairsConcat(f + PopupC(r) + mid + PopupB(r), bk);
  }

  /** The popup heads an E flute `ลอน E` in either slot, and a C or B flute by its own name. */
  lemma PopupLabels(r: DemandRow)
    ensures forall e :: e in PopupC(r) ==> e.heading == (if r.cType == "E" then "ลอน E" else "ลอน C")
    ensures forall e :: e in PopupB(r) ==> e.heading == (if r.bType == "E" then "ลอน E" else "ลอน B")
  {
  }
}

=== FILE: layers.dfy ===
/**
 * The five paper layers of a corrugated board, outside to inside: the front
 * liner, the C flute, the middle liner, the B flute and the back liner. The
 * order spec, the roll traces and the demand table are all kept per layer.
 */
module Layers {

  datatype Layers<T> = Layers(front: T, c: T, middle: T, b: T, back: T) {

    /** The five layers in board order. */
    function InOrder(): (r: seq<T>)
      ensures |r| == 5
    {
      [front, c, middle, b, back]
    }
  }

  /** The materials actually used: the non-empty names among the five layers (Python's truthy strings). */
  function Materials(spec: Layers<string>): (r: set<string>)
    ensures "" !in r
    ensures forall m :: m in r <==> m != "" && m in spec.InOrder()
  {
    set m | m in spec.InOrder() && m != ""
  }
}

=== FILE: options.dfy ===
/** A value that may be absent: Python's `None` on one side, a present value on the other. */
module Options {

  datatype Option<T> = None | Some(value: T) {

    /** The value, or `default` when absent. */
    function GetOr(default: T): T {
      match this
      case Some(v) => v
      case None => default
    }
  }
}

=== FILE: results.dfy ===
/**
 * The bookkeeping of `append_results_to_table`: the results gathered so far,
 * the best (lowest-trim) result of each order number, the rows the table
 * shows and the colour of each row.
 */
module Results {
  import opened Options
  import opened Text
  import opened Layers

  /** The `roll_w` of a suggestion the solver could not serve. */
  const Infeasible: string := "Failed/Infeasible"
  /** "none": the allocator found no suitable roll for a layer. */
  const NoRoll: string := "ไม่มี"

  /**
   * One result row. `trim` is `None` when the trim is missing, not a number,
   * or infinite: such a trim never compares below anything, and every finite
   * trim compares below the infinity it stands for. A NaN trim is never stored
   * as a best, so it matters only on the left of `<`, where it is below
   * nothing. An absent order number is `""`.
   */
  datatype CutResult = CutResult(
    rollW: string,
    orderNumber: string,
    trim: Option<real>,
    rollInfos: Layers<string>,
    cuts: Option<int>,
    orderQty: Option<real>)

  /** `trim < current_best_trim` with infinity for an absent trim. */
  predicate Below(a: Option<real>, b: Option<real>) {
    a.Some? && (b.None? || a.value < b.value)
  }

  /** A result counted for order `o`: it names `o` and has a finite trim. */
  predicate Counts(r: CutResult, o: string) {
    o != "" && r.orderNumber == o && r.trim.Some?
  }

  /**
   * Among the first `n` results, `k` is the best one of order `o`: it counts
   * for `o`, no result of `o` has a lower trim, and every earlier result of
   * `o` has a strictly higher one.
   */
  ghost predicate BestAmong(results: seq<CutResult>, n: nat, o: string, k: nat)
    requires n <= |results|
  {
    && k < n
    && Counts(results[k], o)
    && (forall j :: 0 <= j < n && Counts(results[j], o) ==> results[k].trim.value <= results[j].trim.value)
    && (forall j :: 0 <= j < k && Counts(results[j], o) ==> results[k].trim.value < results[j].trim.value)
  }

  /** Some result among the first `n` counts for order `o`. */
  ghost predicate Counted(results: seq<CutResult>, n: nat, o: string)
    requires n <= |results|
  {
    exists j :: 0 <= j < n && Counts(results[j], o)
  }

  /** The best map over the first `n` results. */
  ghost predicate BestSoFar(results: seq<CutResult>, n: nat, best: map<string, nat>)
    requires n <= |results|
  {
    && (forall o :: o in best ==> BestAmong(results, n, o, best[o]))
    && (forall o :: o in best <==> Counted(results, n, o))
  }

  /** One pass of the loop body: result `i` replaces its order's best when its trim is lower. */
  function Consider(results: seq<CutResult>, best: map<string, nat>, i: nat): map<string, nat>
    requires i < |results|
    requires forall o :: o in best ==> best[o] < |results|
  {
    var o := results[i].orderNumber;
    if o == "" then best
    else
      var current := if o in best then results[best[o]].trim else None;
      if Below(results[i].trim, current) then best[o := i] else best
  }

  /** After considering result `i`, each mapped order holds its best among the first `i + 1` results. */
  lemma ConsiderBest(results: seq<CutResult>, best: map<string, nat>, i: nat)
    requires i < |results|
    requires BestSoFar(results, i, best)
    ensures forall o :: o in Consider(results, best, i) ==> BestAmong(results, i + 1, o, Consider(results, best, i)[o])
  {
    var best' := Consider(results, best, i);
    forall o | o in best' ensures BestAmong(results, i + 1, o, best'[o]) {
      if o != results[i].orderNumber {
        assert !Counts(results[i], o);
      }
    }
  }

  /** After considering result `i`, exactly the orders counted among the first `i + 1` results are mapped. */
  lemma ConsiderCounted(results: seq<CutResult>, best: map<string, nat>, i: nat)
    requires i < |results|
    requires BestSoFar(results, i, best)
    ensures forall o :: o in Consider(results, best, i) <==> Counted(results, i + 1, o)
  {
    var best' := Consider(results, best, i);
    forall o ensures o in best' <==> Counted(results, i + 1, o) {
      if Counted(results, i + 1, o) && !Counted(results, i, o) {
        assert Counts(results[i], o);
      }
    }
  }

  /** Considering result `i` extends the best map from the first `i` results to the first `i + 1`. */
  lemma ConsiderStep(results: seq<CutResult>, best: map<string, nat>, i: nat)
    requires i < |results|
    requires BestSoFar(results, i, best)
    ensures BestSoFar(results, i + 1, Consider(results, best, i))
  {
    ConsiderBest(results, best, i);
    ConsiderCounted(results, best, i);
  }

  /**
   * The loop that fills `best_results_map`, keeping indices instead of the
   * result dicts: an order is mapped exactly when some result of it has a
   * finite trim, and it is mapped to its lowest-trim result, the earliest
   * one on a tie.
   */
  method BestPerOrder(results: seq<CutResult>) returns (best: map<string, nat>)
    ensures forall o :: o in best ==> BestAmong(results, |results|, o, best[o])
    ensures forall o :: o in best <==> Counted(results, |results|, o)
  {
    best := map[];
    for i := 0 to |results|
      invariant BestSoFar(results, i, best)
    {
      ConsiderStep(results, best, i);
      best := Consider(results, best, i);
    }
  }

  /** What `BestPerOrder` returns: each order with a counted result mapped to its best one. */
  ghost predicate IsBestMap(results: seq<CutResult>, best: map<string, nat>) {
    && (forall o :: o in best ==> BestAmong(results, |results|, o, best[o]))
    && (forall o :: o in best <==> Counted(results, |results|, o))
  }

  /** There is only one best result per order, so the map's choice is forced. */
  lemma BestUnique(results: seq<CutResult>, n: nat, o: string, k1: nat, k2: nat)
    requires n <= |results|
    requires BestAmong(results, n, o, k1) && BestAmong(results, n, o, k2)
    ensures k1 == k2
  {
    if k1 < k2 {
      assert false;
    } else if k2 < k1 {
      assert false;
    }
  }

  /** The rows the table shows: all results, or those not marked infeasible when the checkbox is off. */
  function DisplayIndices(results: seq<CutResult>, showUnprocessed: bool): (r: seq<nat>)
    ensures forall i :: i in r <==> 0 <= i < |results| && (showUnprocessed || results[i].rollW != Infeasible)
    ensures forall p, q :: 0 <= p < q < |r| ==> r[p] < r[q]
    decreases |results|
  {
    if results == [] then []
    else
      var n := |results| - 1;
      var rest := DisplayIndices(results[..n], showUnprocessed);
      assert forall p :: 0 <= p < |rest| ==> rest[p] in rest;
      if showUnprocessed || results[n].rollW != Infeasible then rest + [n] else rest
  }

  datatype Shade = Red | Yellow | Plain

  predicate Unprocessed(r: CutResult) {
    r.rollW == Infeasible
  }

  /** Some layer's roll info contains "ไม่มี". */
  predicate LacksRoll(r: CutResult) {
    exists info :: info in r.rollInfos.InOrder() && Contains(info, NoRoll)
  }

  /** The background of row `i`: red for an invalid row, else yellow when it is not its order's best, else none. */
  function RowShade(results: seq<CutResult>, best: map<string, nat>, i: nat): Shade
    requires i < |results|
  {
    if LacksRoll(results[i]) || Unprocessed(results[i]) then Red
    else if i !in best.Values then Yellow
    else Plain
  }

  /** Only one map meets the description of `BestPerOrder`. */
  lemma BestMapUnique(results: seq<CutResult>, best1: map<string, nat>, best2: map<string, nat>)
    requires IsBestMap(results, best1) && IsBestMap(results, best2)
    ensures best1 == best2
  {
    forall o | o in best1 ensures best1[o] == best2[o] {
      BestUnique(results, |results|, o, best1[o], best2[o]);
    }
  }

  /** An uncoloured row is the lowest-trim result of its order, the earliest on a tie. */
  lemma PlainRowIsBest(results: seq<CutResult>, best: map<string, nat>, i: nat)
    requires IsBestMap(results, best)
    requires i < |results|
    ensures RowShade(results, best, i) == Plain ==>
              var o := results[i].orderNumber;
              o in best && best[o] == i && BestAmong(results, |results|, o, i)
  {
    if RowShade(results, best, i) == Plain {
      var o :| o in best && best[o] == i;
      assert BestAmong(results, |results|, o, i);
    }
  }

  /** The best result of an order is never marked yellow, and an invalid row is always red. */
  lemma BestNotYellow(results: seq<CutResult>, best: map<string, nat>, o: string)
    requires o in best && best[o] < |results|
    ensures RowShade(results, best, best[o]) != Yellow
    ensures RowShade(results, best, best[o]) == Red <==> LacksRoll(results[best[o]]) || Unprocessed(results[best[o]])
  {
  }

  /** A result without an order number, or without a finite trim, is never uncoloured. */
  lemma UncountedNeverPlain(results: seq<CutResult>, best: map<string, nat>, i: nat)
    requires IsBestMap(results, best)
    requires i < |results|
    requires results[i].orderNumber == "" || results[i].trim.None?
    ensures RowShade(results, best, i) != Plain
  {
    PlainRowIsBest(results, best, i);
  }

  /** With the checkbox off, a shown row is red only for a missing roll. */
  lemma HiddenUnprocessed(results: seq<CutResult>, best: map<string, nat>, i: nat)
    requires i in DisplayIndices(results, false)
    ensures RowShade(results, best, i) == Red <==> LacksRoll(results[i])
  {
  }

  /** The demand-per-cut cell: `order_qty / cuts` when there are cuts and a quantity, else "N/A" (`None`). */
  function DemandPerCut(cuts: Option<int>, orderQty: Option<real>): (v: Option<real>)
    ensures v.Some? <==> cuts.Some? && cuts.value > 0 && orderQty.Some?
    ensures v.Some? ==> v.value * cuts.value as real == orderQty.value
  {
    if cuts.Some? && cuts.value > 0 && orderQty.Some? then Some(orderQty.value / cuts.value as real) else None
  }
}

=== FILE: roll_usage.dfy ===
/**
 * The roll-usage trace readers of the results view: `_format_roll_usage_for_csv`
 * and its twin `_format_roll_usage_to_html`. A trace is the text the roll
 * allocator attaches to one material layer of a cut, for example
 * `-> เปิดม้วนใหม่: R1 (ยาว 1000 ม., เหลือ 600 ม.) + R2 (ยาว 500 ม., ใช้หมด)`:
 * a status before the first `": "`, then one segment per roll, separated by
 * `" + "`. Each segment is matched against the pattern
 * `(.+?)\s*\(ยาว\s*(\d+)\s*ม\.,\s*(?:เหลือ\s*(\d+)\s*ม\.|(ใช้หมด))\)`
 * with `re.match`, that is anchored at the start only.
 */
module RollUsage {
  import opened Options
  import opened Text

  /** One roll named in a trace: its id, its length before the cut and what is left of it. */
  datatype Usage = Usage(id: string, original: nat, remaining: nat) {
    /** The length taken from the roll; negative when a trace reports more left than there was. */
    function Used(): int {
      original - remaining
    }
  }

  const Arrow: string := "->"
  const ArrowSpace: string := "-> "
  const NoStockMark: string := "(ไม่มี"
  const HeaderSep: string := ": "
  const SegmentSep: string := " + "
  /** `\(ยาว` */
  const OpenLength: string := "(ยาว"
  /** `ม\.,` */
  const MetreComma: string := "ม.,"
  const LeftWord: string := "เหลือ"
  /** `ม\.` of the first alternative, then the closing `\)` */
  const MetreClose: string := "ม.)"
  /** `(ใช้หมด)` of the second alternative, then the closing `\)` */
  const ExhaustedClose: string := "ใช้หมด)"

  /** `t` with the literal `p` taken off its front. */
  function Lit(t: string, p: string): (r: Option<string>)
    ensures r.Some? <==> |p| <= |t| && t[..|p|] == p
    ensures r.Some? ==> t == p + r.value
  {
    if |p| <= |t| && t[..|p|] == p then Some(t[|p|..]) else None
  }

  /** A greedy `(\d+)`: its value and the text after it. */
  function Number(t: string): (r: Option<(nat, string)>)
    ensures r.Some? <==> t != [] && IsDigit(t[0])
  {
    var n := DigitRun(t);
    if n == 0 then None else Some((DigitsValue(t[..n]), t[n..]))
  }

  /** The groups 2, 3 and 4 of a successful match: the original length, the `เหลือ` number, whether `ใช้หมด` matched. */
  datatype Groups = Groups(original: nat, left: Option<nat>, exhausted: bool)

  /** The first alternative, `เหลือ\s*(\d+)\s*ม\.`, and the closing `\)`. */
  function LeftBranch(original: nat, d: string): (r: Option<Groups>)
    ensures r.Some? ==> r.value.original == original && r.value.left.Some? && !r.value.exhausted
  {
    match Lit(d, LeftWord)
    case None => None
    case Some(e) =>
      match Number(TrimStart(e))
      case None => None
      case Some((left, f)) =>
        if Lit(TrimStart(f), MetreClose).Some? then Some(Groups(original, Some(left), false)) else None
  }

  /** The second alternative, `(ใช้หมด)`, and the closing `\)`. */
  function ExhaustedBranch(original: nat, d: string): (r: Option<Groups>)
    ensures r.Some? ==> r.value == Groups(original, None, true)
  {
    if Lit(d, ExhaustedClose).Some? then Some(Groups(original, None, true)) else None
  }

  /** The parts of the pattern after group 1, in the order they are matched. */
  datatype Stage =
    | AtOpen              // `\s*\(ยาว`
    | AtOriginal          // `\s*(\d+)`
    | AtComma(original: nat)  // `\s*ม\.,\s*`
    | AtChoice(original: nat) // `(?:เหลือ\s*(\d+)\s*ม\.|(ใช้หมด))\)`

  function StagesLeft(st: Stage): nat {
    match st
    case AtOpen => 3
    case AtOriginal => 2
    case AtComma(_) => 1
    case AtChoice(_) => 0
  }

  /**
   * The pattern from stage `st` on, matched at the front of `t`. Every `\s*`
   * and `\d+` here is followed by a character outside its own class, and the
   * two alternatives start with different letters, so backtracking never finds
   * a second way: consuming greedily and failing at the first mismatch is the
   * regular expression's behaviour.
   */
  function MatchStage(st: Stage, t: string): (r: Option<Groups>)
    ensures r.Some? ==> (r.value.exhausted <==> r.value.left.None?)
    decreases StagesLeft(st)
  {
    match st
    case AtOpen =>
      (match Lit(TrimStart(t), OpenLength)
       case None => None
       case Some(a) => MatchStage(AtOriginal, a))
    case AtOriginal =>
      (match Number(TrimStart(t))
       case None => None
       case Some((original, b)) => MatchStage(AtComma(original), b))
    case AtComma(original) =>
      (match Lit(TrimStart(t), MetreComma)
       case None => None
       case Some(c) => MatchStage(AtChoice(original), TrimStart(c)))
    case AtChoice(original) =>
      var first := LeftBranch(original, t);
      if first.Some? then first else ExhaustedBranch(original, t)
  }

  /** Everything of the pattern after group 1, matched at the front of `t`. */
  function MatchTail(t: string): (r: Option<Groups>)
    ensures r.Some? ==> (r.value.exhausted <==> r.value.left.None?)
  {
    MatchStage(AtOpen, t)
  }

  /** `0 if group(4) == "ใช้หมด" else int(group(3)) if group(3) else 0` */
  function Remaining(g: Groups): nat {
    if g.exhausted then 0 else g.left.GetOr(0)
  }

  /** `s[..k]` can be group 1: `.+?` takes at least one character and `.` never takes a newline. */
  predicate IdSpan(s: string, k: int) {
    1 <= k <= |s| && forall i :: 0 <= i < k ==> s[i] != '\n'
  }

  /** The pattern, with `tail` for everything after group 1, matches `s` with group 1 ending at `k`. */
  predicate MatchesWith(tail: string -> Option<Groups>, s: string, k: int) {
    IdSpan(s, k) && tail(s[k..]).Some?
  }

  /** The usage read from a match whose group 1 is `s[..k]`. */
  function UsageWith(tail: string -> Option<Groups>, s: string, k: int): Usage
    requires MatchesWith(tail, s, k)
  {
    var g := tail(s[k..]).value;
    Usage(Strip(s[..k]), g.original, Remaining(g))
  }

  /**
   * The lazy `.+?`: try group 1 ending at `k`, `k + 1`, ... and keep the first
   * end that lets the rest of the pattern match; stop at a newline, which `.`
   * cannot take.
   */
  function LazyFrom(tail: string -> Option<Groups>, s: string, k: nat): Option<Usage>
    requires 1 <= k
    decreases |s| - k
  {
    if k > |s| || s[k - 1] == '\n' then None
    else if tail(s[k..]).Some? then
      var g := tail(s[k..]).value;
      Some(Usage(Strip(s[..k]), g.original, Remaining(g)))
    else LazyFrom(tail, s, k + 1)
  }

  /** `LazyFrom` finds the least end of group 1 at or after `k` that matches, when none before `k` does. */
  lemma {:induction false} LazyFromFindsFirst(tail: string -> Option<Groups>, s: string, k: nat)
    requires 1 <= k
    requires forall j :: 1 <= j < k ==> !MatchesWith(tail, s, j)
    requires forall i :: 0 <= i < k - 1 && i < |s| ==> s[i] != '\n'
    ensures var r := LazyFrom(tail, s, k);
            r.Some? ==> exists m :: k <= m && MatchesWith(tail, s, m) && r.value == UsageWith(tail, s, m)
                                    && forall j :: 1 <= j < m ==> !MatchesWith(tail, s, j)
    ensures LazyFrom(tail, s, k).None? ==> forall j :: 1 <= j ==> !MatchesWith(tail, s, j)
    decreases |s| - k
  {
    if k > |s| {
    } else if s[k - 1] == '\n' {
      assert forall j :: k <= j ==> !IdSpan(s, j);
    } else if tail(s[k..]).Some? {
      assert MatchesWith(tail, s, k);
    } else {
      assert !MatchesWith(tail, s, k);
      LazyFromFindsFirst(tail, s, k + 1);
    }
  }

  /** `roll_pattern.match(s)`, reduced to the usage the formatters read from it. */
  function MatchRoll(s: string): Option<Usage> {
    LazyFrom(MatchTail, s, 1)
  }

  /**
   * `MatchRoll` is the regular expression's lazy match: it succeeds exactly
   * when some end of group 1 lets the rest match, and then reads the least such end.
   */
  lemma MatchRollIsLazy(s: string)
    ensures MatchRoll(s).Some? ==>
              exists k :: MatchesWith(MatchTail, s, k) && MatchRoll(s).value == UsageWith(MatchTail, s, k)
                          && forall j :: 1 <= j < k ==> !MatchesWith(MatchTail, s, j)
    ensures MatchRoll(s).None? ==> forall k :: 1 <= k ==> !MatchesWith(MatchTail, s, k)
  {
    LazyFromFindsFirst(MatchTail, s, 1);
  }

  /** One segment of a trace as the formatters see it. */
  datatype Segment = Row(usage: Usage) | Incomplete(text: string)

  function ReadSegment(raw: string): Segment {
    var s := Strip(raw);
    match MatchRoll(s)
    case Some(u) => Row(u)
    case None => Incomplete(s)
  }

  /** The four ways both formatters classify a trace. */
  datatype Trace =
    | NoArrow
    | NotInStock
    | NoHeader
    | Itemised(status: string, segments: seq<Segment>)

  function ReadTrace(s: string): (r: Trace)
    ensures r.Itemised? ==> |r.segments| >= 1
  {
    if !Contains(s, Arrow) then NoArrow
    else if Contains(s, NoStockMark) then NotInStock
    else match SplitOnce(s, HeaderSep)
      case None => NoHeader
      case Some((head, details)) =>
        var parts := Split(details, SegmentSep);
        Itemised(Strip(RemoveAll(head, ArrowSpace)), ReadSegments(parts))
  }

  /** Every `" + "` piece read on its own, in order. */
  function ReadSegments(parts: seq<string>): (r: seq<Segment>)
    ensures |r| == |parts|
    ensures forall i :: 0 <= i < |parts| ==> r[i] == ReadSegment(parts[i])
  {
    seq(|parts|, i requires 0 <= i < |parts| => ReadSegment(parts[i]))
  }

  /** The CSV line of a matched roll. */
  function RowLine(u: Usage): string {
    "  ID: " + u.id + ", ยาวเดิม: " + NatToString(u.original) + ", ใช้ไป: " + IntToString(u.Used())
    + ", คงเหลือ: " + NatToString(u.remaining)
  }

  function CsvLine(seg: Segment): string {
    match seg
    case Row(u) => RowLine(u)
    case Incomplete(t) => "  (ข้อมูลไม่สมบูรณ์: " + t + ")"
  }

  /** The lines of an itemised trace: the status header, then one line per segment in order. */
  function CsvLines(status: string, segments: seq<Segment>): (r: seq<string>)
    ensures |r| == |segments| + 1
    ensures r[0] == status + ":"
    ensures forall i :: 0 <= i < |segments| ==> r[i + 1] == CsvLine(segments[i])
  {
    [status + ":"] + seq(|segments|, i requires 0 <= i < |segments| => CsvLine(segments[i]))
  }

  /** `_format_roll_usage_for_csv`. */
  function FormatRollUsageForCsv(s: string): string {
    match ReadTrace(s)
    case NoArrow => Strip(RemoveAll(s, ArrowSpace))
    case NotInStock => Strip(RemoveAll(s, ArrowSpace))
    case NoHeader => s
    case Itemised(status, segments) => Join(CsvLines(status, segments), "\n")
  }

  /**
   * `_format_roll_usage_to_html`, without the markup: the text returned as is,
   * the text shown in italics, the status alone, or the status over a table of rolls.
   */
  datatype HtmlView =
    | AsIs(text: string)
    | Italic(text: string)
    | StatusOnly(status: string)
    | StatusTable(status: string, rows: seq<Segment>)

  /** `_format_roll_usage_to_html`; its `if not table_rows` fallback can never be taken. */
  function FormatRollUsageToHtml(s: string): (r: HtmlView)
    ensures !r.StatusOnly?
    ensures !Contains(s, Arrow) ==> r == AsIs(s)
    ensures Contains(s, Arrow) && Contains(s, NoStockMark) ==> r == Italic(RemoveAll(s, ArrowSpace))
    ensures r.AsIs? ==> r.text == s
    ensures r.StatusTable? ==> |r.rows| >= 1
  {
    match ReadTrace(s)
    case NoArrow => AsIs(s)
    case NotInStock => Italic(RemoveAll(s, ArrowSpace))
    case NoHeader => AsIs(s)
    case Itemised(status, segments) =>
      if |segments| == 0 then StatusOnly(status) else StatusTable(status, segments)
  }
}

=== FILE: roll_usage_facts.dfy ===
/**
 * What the trace readers promise about the traces the roll allocator writes:
 * a roll printed in the allocator's form reads back as the same id and
 * lengths, and a whole trace reads back as its status and its rolls.
 */
module RollUsageFacts {
  import opened Options
  import opened Text
  import opened TextFacts
  import opened RollUsage

  /** A roll id that survives a trace: not empty, stripped, and free of newline, `(` and `+`. */
  predicate PlainId(id: string) {
    && id != []
    && IsStripped(id)
    && forall i :: 0 <= i < |id| ==> id[i] != '\n' && id[i] != '(' && id[i] != '+'
  }

  /** The allocator's text after the id: ` (ยาว N ม., เหลือ M ม.)`, or ` (ยาว N ม., ใช้หมด)` when nothing is left. */
  function ShowTail(u: Usage): string {
    " " + (OpenLength + (" " + (NatToString(u.original) + (" " + (MetreComma + (" " +
      (if u.remaining == 0 then ExhaustedClose
       else LeftWord + (" " + (NatToString(u.remaining) + (" " + MetreClose))))))))))
  }

  /** One roll as the allocator writes it, e.g. `R1 (ยาว 1000 ม., เหลือ 600 ม.)`. */
  function Show(u: Usage): string {
    u.id + ShowTail(u)
  }

  /** The two alternatives read the allocator's ending back. */
  lemma ChoiceShow(u: Usage)
    ensures var d := if u.remaining == 0 then ExhaustedClose
                     else LeftWord + (" " + (NatToString(u.remaining) + (" " + MetreClose)));
            var g := MatchStage(AtChoice(u.original), d);
            g.Some? && g.value.original == u.original && Remaining(g.value) == u.remaining
  {
    var nr := NatToString(u.remaining);
    var f := " " + MetreClose;
    var e := " " + (nr + f);
    if u.remaining == 0 {
      assert ExhaustedClose[..|LeftWord|][0] != LeftWord[0];
      assert LeftBranch(u.original, ExhaustedClose) == None;
    } else {
      var d := LeftWord + e;
      assert Lit(d, LeftWord) == Some(e);
      TrimStartOneSpace(nr + f);
      DigitRunConcat(nr, f);
      assert (nr + f)[..|nr|] == nr;
      assert Number(nr + f) == Some((u.remaining, f));
      TrimStartOneSpace(MetreClose);
      assert Lit(MetreClose, MetreClose).Some?;
      assert LeftBranch(u.original, d) == Some(Groups(u.original, Some(u.remaining), false));
    }
  }

  /** ` (ยาว` is consumed. */
  lemma OpenStep(a: string)
    ensures MatchTail(" " + (OpenLength + a)) == MatchStage(AtOriginal, a)
  {
    TrimStartOneSpace(OpenLength + a);
    assert Lit(OpenLength + a, OpenLength) == Some(a);
  }

  /** ` N` is read as the original length. */
  lemma OriginalStep(n: nat, b: string)
    requires b != [] && b[0] == ' '
    ensures MatchStage(AtOriginal, " " + (NatToString(n) + b)) == MatchStage(AtComma(n), b)
  {
    var no := NatToString(n);
    TrimStartOneSpace(no + b);
    DigitRunConcat(no, b);
    assert (no + b)[..|no|] == no;
    assert Number(no + b) == Some((n, b));
  }

  /** ` ม., ` is consumed. */
  lemma CommaStep(n: nat, d: string)
    requires d != [] && !IsSpace(d[0])
    ensures MatchStage(AtComma(n), " " + (MetreComma + (" " + d))) == MatchStage(AtChoice(n), d)
  {
    TrimStartOneSpace(MetreComma + (" " + d));
    assert Lit(MetreComma + (" " + d), MetreComma) == Some(" " + d);
    TrimStartOneSpace(d);
  }

  /** The rest of the pattern reads the lengths back from the allocator's text. */
  lemma MatchTailShow(u: Usage)
    ensures MatchTail(ShowTail(u)).Some?
    ensures MatchTail(ShowTail(u)).value.original == u.original
    ensures Remaining(MatchTail(ShowTail(u)).value) == u.remaining
  {
    var d := if u.remaining == 0 then ExhaustedClose
             else LeftWord + (" " + (NatToString(u.remaining) + (" " + MetreClose)));
    var b := " " + (MetreComma + (" " + d));
    var a := " " + (NatToString(u.original) + b);
    assert ShowTail(u) == " " + (OpenLength + a);
    OpenStep(a);
    OriginalStep(u.original, b);
    CommaStep(u.original, d);
    ChoiceShow(u);
  }

  /** With group 1 ending inside the id, the rest of the pattern cannot match. */
  lemma NoEarlyMatch(u: Usage, j: nat)
    requires PlainId(u.id)
    requires 1 <= j < |u.id|
    ensures !MatchesWith(MatchTail, Show(u), j)
  {
    var s, x := Show(u), u.id[j..];
    assert s[j..] == x + ShowTail(u);
    TrimStartConcat(x, ShowTail(u));
    var y := TrimStart(x);
    assert y[0] == x[|x| - |y|];
    assert TrimStart(s[j..])[0] == y[0];
  }

  /** The lazy search stops at the first end of group 1 that lets the pattern match. */
  lemma MatchRollFirst(s: string, n: int)
    requires MatchesWith(MatchTail, s, n)
    requires forall j :: 1 <= j < n ==> !MatchesWith(MatchTail, s, j)
    ensures MatchRoll(s) == Some(UsageWith(MatchTail, s, n))
  {
    var r := MatchRoll(s);
    MatchRollIsLazy(s);
    var k :| MatchesWith(MatchTail, s, k) && r.value == UsageWith(MatchTail, s, k)
             && forall j :: 1 <= j < k ==> !MatchesWith(MatchTail, s, j);
    assert k == n;
  }

  /** A roll printed in the allocator's form matches the pattern with its own id and lengths. */
  lemma MatchRollShow(u: Usage)
    requires PlainId(u.id)
    ensures MatchRoll(Show(u)) == Some(u)
  {
    var s := Show(u);
    var n := |u.id|;
    assert MatchesWith(MatchTail, s, n) && UsageWith(MatchTail, s, n) == u by {
      assert s[n..] == ShowTail(u);
      MatchTailShow(u);
      assert s[..n] == u.id;
      StripStripped(u.id);
    }
    forall j | 1 <= j < n ensures !MatchesWith(MatchTail, s, j) {
      NoEarlyMatch(u, j);
    }
    MatchRollFirst(s, n);
  }

  /** Printing a roll and reading the segment back gives the same roll (the natural round trip). */
  lemma ReadSegmentShow(u: Usage)
    requires PlainId(u.id)
    ensures ReadSegment(Show(u)) == Row(u)
  {
    var s := Show(u);
    assert s[|s| - 1] == ')';
    StripStripped(s);
    MatchRollShow(u);
  }

  /** `c` does not occur in `s`. */
  predicate Lacks(s: string, c: char) {
    forall i :: 0 <= i < |s| ==> s[i] != c
  }

  lemma LacksConcat(x: string, y: string, c: char)
    requires Lacks(x, c) && Lacks(y, c)
    ensures Lacks(x + y, c)
  {
  }

  /** Every `(` in `s` opens `(ยาว`; so `(ไม่มี` cannot occur. */
  predicate ParenOpensLength(s: string) {
    forall i :: 0 <= i < |s| && s[i] == '(' ==> i + 1 < |s| && s[i + 1] == OpenLength[1]
  }

  lemma ParenConcat(x: string, y: string)
    requires ParenOpensLength(x) && ParenOpensLength(y)
    requires x == [] || x[|x| - 1] != '('
    ensures ParenOpensLength(x + y)
  {
    var s := x + y;
    forall i | 0 <= i < |s| && s[i] == '(' ensures i + 1 < |s| && s[i + 1] == OpenLength[1] {
      if i < |x| {
        assert x[i] == '(';
      } else {
        assert y[i - |x|] == '(';
      }
    }
  }

  lemma ParenNoStock(s: string)
    requires ParenOpensLength(s)
    ensures !Contains(s, NoStockMark)
  {
    forall j | 0 <= j <= |s| - |NoStockMark| ensures !OccursAt(s, NoStockMark, j) {
      assert s[j..j + |NoStockMark|][0] == s[j] && s[j..j + |NoStockMark|][1] == s[j + 1];
    }
  }

  /** The characters of the allocator's text after the id: no `+`, no newline, and a `(` only at `(ยาว`. */
  lemma ShowTailChars(u: Usage)
    ensures Lacks(ShowTail(u), '+')
    ensures ParenOpensLength(ShowTail(u))
    ensures ShowTail(u)[|ShowTail(u)| - 1] == ')'
  {
    var no, nr := NatToString(u.original), NatToString(u.remaining);
    var d := if u.remaining == 0 then ExhaustedClose else LeftWord + (" " + (nr + (" " + MetreClose)));
    var a := " " + (no + (" " + (MetreComma + (" " + d))));
    assert ShowTail(u) == " " + (OpenLength + a);
    assert Lacks(a, '(') && Lacks(a, '+') by {
      assert Lacks(d, '(') && Lacks(d, '+') by {
        if u.remaining != 0 {
          LacksConcat(" ", nr + (" " + MetreClose), '(');
          LacksConcat(" ", nr + (" " + MetreClose), '+');
        }
      }
      LacksConcat(no, " " + (MetreComma + (" " + d)), '(');
      LacksConcat(no, " " + (MetreComma + (" " + d)), '+');
    }
    ParenConcat(OpenLength, a);
    ParenConcat(" ", OpenLength + a);
  }

  /** A roll printed by the allocator has no `+` and every `(` in it opens `(ยาว`. */
  lemma ShowChars(u: Usage)
    requires PlainId(u.id)
    ensures Lacks(Show(u), '+')
    ensures ParenOpensLength(Show(u))
  {
    ShowTailChars(u);
    ParenConcat(u.id, ShowTail(u));
  }

  /** The texts of a list of rolls, as the allocator writes them. */
  function Shows(us: seq<Usage>): (r: seq<string>)
    ensures |r| == |us|
  {
    seq(|us|, i requires 0 <= i < |us| => Show(us[i]))
  }

  /** The rows a trace of `us` should read back as. */
  function Rows(us: seq<Usage>): (r: seq<Segment>)
    ensures |r| == |us|
    ensures forall i :: 0 <= i < |us| ==> r[i] == Row(us[i])
  {
    seq(|us|, i requires 0 <= i < |us| => Row(us[i]))
  }

  /** The CSV lines of the rolls of `us`. */
  function RowLines(us: seq<Usage>): (r: seq<string>)
    ensures |r| == |us|
    ensures forall i :: 0 <= i < |us| ==> r[i] == RowLine(us[i])
  {
    seq(|us|, i requires 0 <= i < |us| => RowLine(us[i]))
  }

  /** A whole trace as the allocator writes it: `-> status: roll + roll + ...`. */
  function ShowTrace(status: string, us: seq<Usage>): string {
    ArrowSpace + (status + (HeaderSep + Join(Shows(us), SegmentSep)))
  }

  /** A status that survives a trace: stripped, and free of `:`, `(` and `-> `. */
  predicate PlainStatus(status: string) {
    IsStripped(status) && Lacks(status, ':') && Lacks(status, '(') && !Contains(status, ArrowSpace)
  }

  lemma {:induction false} ParenJoin(parts: seq<string>)
    requires forall k :: 0 <= k < |parts| ==> ParenOpensLength(parts[k]) && (parts[k] == [] || parts[k][|parts[k]| - 1] != '(')
    ensures ParenOpensLength(Join(parts, SegmentSep))
    ensures Join(parts, SegmentSep) == [] || Join(parts, SegmentSep)[|Join(parts, SegmentSep)| - 1] != '('
    decreases |parts|
  {
    if |parts| > 1 {
      ParenJoin(parts[1..]);
      var rest := Join(parts[1..], SegmentSep);
      ParenConcat(SegmentSep, rest);
      ParenConcat(parts[0], SegmentSep + rest);
    }
  }

  /** The segments of a printed trace are the printed rolls. */
  lemma SplitShows(us: seq<Usage>)
    requires |us| >= 1
    requires forall i :: 0 <= i < |us| ==> PlainId(us[i].id)
    ensures Split(Join(Shows(us), SegmentSep), SegmentSep) == Shows(us)
  {
    var parts := Shows(us);
    forall k, i | 0 <= k < |parts| && 0 <= i < |parts[k]| ensures parts[k][i] != SegmentSep[1] {
      ShowChars(us[k]);
    }
    SplitJoin(parts, SegmentSep, 1);
  }

  /** A printed trace holds `->` and does not hold `(ไม่มี`. */
  lemma TraceMarks(status: string, us: seq<Usage>)
    requires PlainStatus(status)
    requires forall i :: 0 <= i < |us| ==> PlainId(us[i].id)
    ensures Contains(ShowTrace(status, us), Arrow)
    ensures !Contains(ShowTrace(status, us), NoStockMark)
  {
    var t := ShowTrace(status, us);
    assert OccursAt(t, Arrow, 0);
    var parts := Shows(us);
    forall k | 0 <= k < |parts| ensures ParenOpensLength(parts[k]) && (parts[k] == [] || parts[k][|parts[k]| - 1] != '(') {
      ShowChars(us[k]);
      ShowTailChars(us[k]);
      assert parts[k][|parts[k]| - 1] == ShowTail(us[k])[|ShowTail(us[k])| - 1];
    }
    var j := Join(parts, SegmentSep);
    ParenJoin(parts);
    ParenConcat(HeaderSep, j);
    ParenConcat(status, HeaderSep + j);
    ParenConcat(ArrowSpace, status + (HeaderSep + j));
    ParenNoStock(t);
  }

  /** The header of a printed trace is cut at the `": "` after the status. */
  lemma TraceHeader(status: string, us: seq<Usage>)
    requires PlainStatus(status)
    ensures SplitOnce(ShowTrace(status, us), HeaderSep) == Some((ArrowSpace + status, Join(Shows(us), SegmentSep)))
  {
    var a, j := ArrowSpace + status, Join(Shows(us), SegmentSep);
    assert ShowTrace(status, us) == a + (HeaderSep + j);
    assert forall i :: 0 <= i < |a| ==> a[i] != HeaderSep[0] by {
      assert Lacks(ArrowSpace, ':');
      LacksConcat(ArrowSpace, status, ':');
    }
    SplitOnceAt(a, HeaderSep, j);
  }

  /** The status of a printed trace reads back unchanged. */
  lemma StatusBack(status: string)
    requires PlainStatus(status)
    ensures Strip(RemoveAll(ArrowSpace + status, ArrowSpace)) == status
  {
    var a := ArrowSpace + status;
    assert a[..|ArrowSpace|] == ArrowSpace && a[|ArrowSpace|..] == status;
    assert RemoveAll(a, ArrowSpace) == RemoveAll(status, ArrowSpace);
    RemoveAllAbsent(status, ArrowSpace);
    StripStripped(status);
  }

  /** A trace with `->`, without `(ไม่มี` and with a `": "` is itemised: its status, then one segment per `" + "` piece. */
  lemma ReadTraceItemised(s: string, head: string, details: string)
    requires Contains(s, Arrow) && !Contains(s, NoStockMark)
    requires SplitOnce(s, HeaderSep) == Some((head, details))
    ensures var parts := Split(details, SegmentSep);
            ReadTrace(s) == Itemised(Strip(RemoveAll(head, ArrowSpace)),
                                     ReadSegments(parts))
  {
  }

  /** A printed trace reads back as its status and one matched row per roll, in order. */
  lemma ReadTraceShow(status: string, us: seq<Usage>)
    requires PlainStatus(status)
    requires |us| >= 1
    requires forall i :: 0 <= i < |us| ==> PlainId(us[i].id)
    ensures ReadTrace(ShowTrace(status, us)) == Itemised(status, Rows(us))
  {
    var parts := Shows(us);
    var t := ShowTrace(status, us);
    var segs := ReadSegments(parts);
    assert ReadTrace(t) == Itemised(status, segs) by {
      TraceMarks(status, us);
      TraceHeader(status, us);
      StatusBack(status);
      SplitShows(us);
      ReadTraceItemised(t, ArrowSpace + status, Join(parts, SegmentSep));
    }
    ReadShows(us);
  }

  /** Each printed roll reads back as its own row. */
  lemma ReadShows(us: seq<Usage>)
    requires forall i :: 0 <= i < |us| ==> PlainId(us[i].id)
    ensures var parts := Shows(us);
            ReadSegments(parts)
            == Rows(us)
  {
    forall i | 0 <= i < |us| ensures ReadSegment(Shows(us)[i]) == Row(us[i]) {
      ReadSegmentShow(us[i]);
    }
  }

  /** A trace without `->` holds no `-> ` either. */
  lemma NoArrowNoArrowSpace(s: string)
    requires !Contains(s, Arrow)
    ensures !Contains(s, ArrowSpace)
  {
    forall j | 0 <= j <= |s| - |ArrowSpace| ensures !OccursAt(s, ArrowSpace, j) {
      assert s[j..j + |Arrow|] == s[j..j + |ArrowSpace|][..|Arrow|];
      assert !OccursAt(s, Arrow, j);
    }
  }

  /** A trace without `->` is only stripped by the CSV formatter. */
  lemma CsvNoArrow(s: string)
    requires !Contains(s, Arrow)
    ensures FormatRollUsageForCsv(s) == Strip(s)
  {
    NoArrowNoArrowSpace(s);
    RemoveAllAbsent(s, ArrowSpace);
    assert ReadTrace(s) == NoArrow;
  }

  /** A trace holding `(ไม่มี` loses every `-> ` and is stripped. */
  lemma CsvNotInStock(s: string)
    requires Contains(s, NoStockMark)
    ensures FormatRollUsageForCsv(s) == Strip(RemoveAll(s, ArrowSpace))
  {
  }

  /** A trace with `->` but without `(ไม่มี` or a `": "` comes back unchanged. */
  lemma CsvNoHeader(s: string)
    requires Contains(s, Arrow) && !Contains(s, NoStockMark) && !Contains(s, HeaderSep)
    ensures FormatRollUsageForCsv(s) == s
  {
    assert ReadTrace(s) == NoHeader;
  }

  /**
   * An itemised trace becomes its status header line followed by one line per
   * `" + "` piece, in order (`CsvLinesShape` spells out each line).
   */
  lemma CsvItemised(s: string, head: string, details: string)
    requires Contains(s, Arrow) && !Contains(s, NoStockMark)
    requires SplitOnce(s, HeaderSep) == Some((head, details))
    ensures FormatRollUsageForCsv(s)
            == Join(CsvLines(Strip(RemoveAll(head, ArrowSpace)), ReadSegments(Split(details, SegmentSep))), "\n")
  {
    ReadTraceItemised(s, head, details);
  }

  /**
   * The lines for a status and the `" + "` pieces after it: the status header,
   * then exactly one line per piece, in order. A matched roll gives its
   * `RowLine` (id, original length, used = original - remaining, remaining);
   * an unmatched piece becomes an "incomplete data" line holding the stripped
   * piece, so nothing is dropped.
   */
  lemma CsvLinesShape(status: string, parts: seq<string>)
    ensures var lines := CsvLines(status, ReadSegments(parts));
            && |lines| == |parts| + 1
            && lines[0] == status + ":"
            && (forall i :: 0 <= i < |parts| && MatchRoll(Strip(parts[i])).Some? ==>
                  lines[i + 1] == RowLine(MatchRoll(Strip(parts[i])).value))
            && (forall i :: 0 <= i < |parts| && MatchRoll(Strip(parts[i])).None? ==>
                  lines[i + 1] == "  (ข้อมูลไม่สมบูรณ์: " + Strip(parts[i]) + ")")
  {
    var segs := ReadSegments(parts);
    var lines := CsvLines(status, segs);
    forall i | 0 <= i < |parts|
      ensures MatchRoll(Strip(parts[i])).Some? ==> lines[i + 1] == RowLine(MatchRoll(Strip(parts[i])).value)
      ensures MatchRoll(Strip(parts[i])).None? ==> lines[i + 1] == "  (ข้อมูลไม่สมบูรณ์: " + Strip(parts[i]) + ")"
    {
      assert lines[i + 1] == CsvLine(segs[i]);
      CsvLineOfPiece(parts[i]);
    }
  }

  /** The CSV line of one `" + "` piece: its row when it matches, an "incomplete data" line otherwise. */
  lemma CsvLineOfPiece(p: string)
    ensures MatchRoll(Strip(p)).Some? ==> CsvLine(ReadSegment(p)) == RowLine(MatchRoll(Strip(p)).value)
    ensures MatchRoll(Strip(p)).None? ==> CsvLine(ReadSegment(p)) == "  (ข้อมูลไม่สมบูรณ์: " + Strip(p) + ")"
  {
  }

  /** The CSV text of a printed trace: the status line, then one line per roll with its used length. */
  lemma CsvShowTrace(status: string, us: seq<Usage>)
    requires PlainStatus(status)
    requires |us| >= 1
    requires forall i :: 0 <= i < |us| ==> PlainId(us[i].id)
    ensures FormatRollUsageForCsv(ShowTrace(status, us))
            == Join([status + ":"] + RowLines(us), "\n")
  {
    ReadTraceShow(status, us);
    RowsLines(status, us);
  }

  /** The lines of a trace's rows are the status line and the row line of each roll. */
  lemma RowsLines(status: string, us: seq<Usage>)
    ensures CsvLines(status, Rows(us)) == [status + ":"] + RowLines(us)
  {
    var lines, rows := CsvLines(status, Rows(us)), RowLines(us);
    var tail := lines[1..];
    forall i | 0 <= i < |us| ensures tail[i] == rows[i] {
      assert tail[i] == CsvLine(Rows(us)[i]);
    }
    assert tail == rows;
    assert lines == [lines[0]] + tail;
  }

  /**
   * The two formatters read a trace the same way: wherever the CSV formatter
   * lists a status and rows, the HTML formatter shows that status over a
   * table of the same rows; without `->` the HTML one returns the text as is
   * where the CSV one strips it; for a roll not in stock both drop every `-> `,
   * the HTML one showing the rest in italics and the CSV one stripping it.
   */
  lemma HtmlMirrorsCsv(s: string)
    ensures ReadTrace(s).Itemised? ==>
              && FormatRollUsageToHtml(s) == StatusTable(ReadTrace(s).status, ReadTrace(s).segments)
              && FormatRollUsageForCsv(s) == Join(CsvLines(ReadTrace(s).status, ReadTrace(s).segments), "\n")
    ensures !Contains(s, Arrow) ==> FormatRollUsageToHtml(s) == AsIs(s) && FormatRollUsageForCsv(s) == Strip(s)
    ensures ReadTrace(s).NoHeader? ==> FormatRollUsageToHtml(s) == AsIs(s) && FormatRollUsageForCsv(s) == s
    ensures ReadTrace(s).NotInStock? ==>
              && FormatRollUsageToHtml(s) == Italic(RemoveAll(s, ArrowSpace))
              && FormatRollUsageForCsv(s) == Strip(FormatRollUsageToHtml(s).text)
  {
    if !Contains(s, Arrow) {
      CsvNoArrow(s);
    }
  }
}

=== FILE: stock.dfy ===
/**
 * `update_stock_data`: the cleaned stock table folded into `ROLL_SPECS`, a
 * nested map from roll width to material to a numbering 1..n of the rolls in
 * stock, each with its id and length. Python dicts keep insertion order and
 * later code walks the widths in that order, so the widths are also kept as a
 * sequence in the order they were first met.
 */
module Stock {
  import opened Options
  import opened Text

  /**
   * One row of the stock table: the text of its size, type and roll-number
   * cells after `str(...)`, and its length cell as read, never converted
   * (`None` for an empty cell).
   */
  datatype StockRow = StockRow(rollSize: string, rollType: string, length: Option<int>, rollNumber: string)

  /** The stock table: the names of its columns and its rows, in file order. */
  datatype StockTable = StockTable(columns: set<string>, rows: seq<StockRow>)

  /** The value stored under a roll key: `{'id': ..., 'length': ...}`. */
  datatype Roll = Roll(id: string, length: Option<int>)

  /** `ROLL_SPECS`: width to material to roll key to roll. */
  type RollSpecs = map<string, map<string, map<nat, Roll>>>

  /** `ROLL_SPECS` with the insertion order of its widths. */
  datatype Stock = Stock(specs: RollSpecs, widths: seq<string>)

  const RequiredColumns: set<string> := {"roll_size", "roll_type", "length", "roll_number"}

  /** A row with its cells stripped, as the loop reads it. */
  datatype Entry = Entry(width: string, material: string, id: string, length: Option<int>)

  function Clean(row: StockRow): Entry {
    Entry(Strip(row.rollSize), Strip(row.rollType), Strip(row.rollNumber), row.length)
  }

  /** Every row of the table, stripped. */
  function CleanAll(rows: seq<StockRow>): (r: seq<Entry>)
    ensures |r| == |rows|
    decreases |rows|
  {
    if rows == [] then [] else CleanAll(rows[..|rows| - 1]) + [Clean(rows[|rows| - 1])]
  }

  lemma Snoc<T>(s: seq<T>, i: nat)
    requires i < |s|
    ensures s[..i + 1] == s[..i] + [s[i]]
  {
  }

  /** A row is kept when its stripped roll number is not blank. */
  predicate Kept(e: Entry) {
    e.id != []
  }

  function RollOf(e: Entry): Roll {
    Roll(e.id, e.length)
  }

  /** Whether a kept row files its roll under width `w` and material `m`. */
  predicate FilesUnder(row: Entry, w: string, m: string) {
    Kept(row) && row.width == w && row.material == m
  }

  /** The rolls the rows file under width `w` and material `m`, in row order. */
  function RollsAt(rows: seq<Entry>, w: string, m: string): seq<Roll>
    decreases |rows|
  {
    if rows == [] then []
    else
      var last := rows[|rows| - 1];
      RollsAt(rows[..|rows| - 1], w, m) + (if FilesUnder(last, w, m) then [RollOf(last)] else [])
  }

  /** The rolls numbered from 1, as the dict of one width and material holds them. */
  function Numbered(rolls: seq<Roll>): (r: map<nat, Roll>)
    ensures forall k: nat :: k in r <==> 1 <= k <= |rolls|
    ensures forall k: nat :: 1 <= k <= |rolls| ==> r[k] == rolls[k - 1]
    decreases |rolls|
  {
    if rolls == [] then map[]
    else Numbered(rolls[..|rolls| - 1])[|rolls| := rolls[|rolls| - 1]]
  }

  /** The index of the first kept row of width `w`, or `|rows|` when there is none. */
  function FirstOf(rows: seq<Entry>, w: string): (r: nat)
    ensures r <= |rows|
    ensures r < |rows| ==> Kept(rows[r]) && rows[r].width == w
    ensures forall j :: 0 <= j < r ==> !(Kept(rows[j]) && rows[j].width == w)
    decreases |rows|
  {
    if rows == [] then 0
    else
      var p := rows[..|rows| - 1];
      var f := FirstOf(p, w);
      if f < |p| then f
      else if Kept(rows[|p|]) && rows[|p|].width == w then |p|
      else |rows|
  }

  /** Every present width has some material and a first kept row. */
  ghost predicate WidthsSeen(rows: seq<Entry>, specs: RollSpecs) {
    forall w :: w in specs ==> specs[w].Keys != {} && FirstOf(rows, w) < |rows|
  }

  /** Under each present width and material, the keys 1..n hold the n rolls filed there, in row order. */
  ghost predicate Numbering(rows: seq<Entry>, specs: RollSpecs) {
    forall w, m :: w in specs && m in specs[w] ==>
      RollsAt(rows, w, m) != [] && specs[w][m] == Numbered(RollsAt(rows, w, m))
  }

  /** Every kept row's width and material are present. */
  ghost predicate Complete(rows: seq<Entry>, specs: RollSpecs) {
    forall j :: 0 <= j < |rows| && Kept(rows[j]) ==>
      rows[j].width in specs && rows[j].material in specs[rows[j].width]
  }

  /** The widths listed are the widths present. */
  ghost predicate Listed(g: Stock) {
    forall w :: w in g.widths <==> w in g.specs
  }

  /** No entry of `s` appears twice, as for the keys of a dict. */
  predicate Distinct(s: seq<string>) {
    forall i, j :: 0 <= i < j < |s| ==> s[i] != s[j]
  }

  /** The widths are listed in the order of their first kept row, so once each. */
  ghost predicate InFirstOrder(rows: seq<Entry>, widths: seq<string>) {
    forall p, q :: 0 <= p < q < |widths| ==> FirstOf(rows, widths[p]) < FirstOf(rows, widths[q])
  }

  /**
   * What `update_stock_data` builds from `rows`: every kept row's width and
   * material are present; under each present width and material the keys
   * are exactly 1..n and hold, in row order, the stripped id and length of
   * the n kept rows filed there; nothing else is present; and the widths
   * are listed once each, in the order of their first kept row.
   */
  ghost predicate Grouped(rows: seq<Entry>, g: Stock) {
    WidthsSeen(rows, g.specs) && Numbering(rows, g.specs) && Complete(rows, g.specs)
    && Listed(g) && InFirstOrder(rows, g.widths)
  }

  /** One pass of the loop body: skip a blank roll number, else file the roll under the next key. */
  function Insert(g: Stock, row: Entry): Stock {
    if row.id == [] then g
    else
      var w, m := row.width, row.material;
      var byWidth: map<string, map<nat, Roll>> := if w in g.specs then g.specs[w] else map[];
      var rolls: map<nat, Roll> := if m in byWidth then byWidth[m] else map[];
      var key: nat := |rolls| + 1;
      Stock(g.specs[w := byWidth[m := rolls[key := Roll(row.id, row.length)]]],
            if w in g.specs then g.widths else g.widths + [w])
  }

  lemma NumberedCard(rolls: seq<Roll>)
    ensures |Numbered(rolls)| == |rolls|
    decreases |rolls|
  {
    if rolls != [] {
      var p := rolls[..|rolls| - 1];
      NumberedCard(p);
      assert Numbered(rolls) == Numbered(p)[|rolls| := rolls[|rolls| - 1]];
    }
  }

  lemma RollsAtSnoc(rows: seq<Entry>, row: Entry, w: string, m: string)
    ensures RollsAt(rows + [row], w, m) == RollsAt(rows, w, m) + (if FilesUnder(row, w, m) then [RollOf(row)] else [])
  {
    assert (rows + [row])[..|rows|] == rows;
  }

  lemma FirstOfSnoc(rows: seq<Entry>, row: Entry, w: string)
    ensures FirstOf(rows, w) < |rows| ==> FirstOf(rows + [row], w) == FirstOf(rows, w)
    ensures FirstOf(rows, w) == |rows| ==>
              FirstOf(rows + [row], w) == if Kept(row) && row.width == w then |rows| else |rows| + 1
  {
    assert (rows + [row])[..|rows|] == rows;
  }

  /** Numbering one more roll adds it under the next key. */
  lemma NumberedSnoc(rolls: seq<Roll>, x: Roll)
    ensures Numbered(rolls + [x]) == Numbered(rolls)[|rolls| + 1 := x]
  {
    assert (rolls + [x])[..|rolls|] == rolls;
  }

  /** The rolls stored under width `w` and material `m`, none when either is absent. */
  function RollsOf(g: Stock, w: string, m: string): map<nat, Roll> {
    if w in g.specs && m in g.specs[w] then g.specs[w][m] else map[]
  }

  /** A kept row's roll is stored under the key after the last one of its width and material. */
  lemma InsertAt(g: Stock, row: Entry)
    requires Kept(row)
    ensures var w, m := row.width, row.material;
            var rolls := RollsOf(g, w, m);
            Insert(g, row).specs[w][m] == rolls[|rolls| + 1 := RollOf(row)]
  {
  }

  /** The roll filed by a kept row goes under the next key of its width and material. */
  lemma InsertFiles(rows: seq<Entry>, g: Stock, row: Entry)
    requires Kept(row)
    requires RollsOf(g, row.width, row.material) == Numbered(RollsAt(rows, row.width, row.material))
    ensures Insert(g, row).specs[row.width][row.material] == Numbered(RollsAt(rows + [row], row.width, row.material))
  {
    var w, m := row.width, row.material;
    var s := RollsAt(rows, w, m);
    RollsAtSnoc(rows, row, w, m);
    NumberedSnoc(s, RollOf(row));
    NumberedCard(s);
    InsertAt(g, row);
  }

  /** A non-empty list of rolls comes from some kept row filed there. */
  lemma {:induction false} RollsAtWitness(rows: seq<Entry>, w: string, m: string)
    requires RollsAt(rows, w, m) != []
    ensures exists j :: 0 <= j < |rows| && FilesUnder(rows[j], w, m)
    decreases |rows|
  {
    var p := rows[..|rows| - 1];
    if !FilesUnder(rows[|p|], w, m) {
      RollsAtWitness(p, w, m);
      var j :| 0 <= j < |p| && FilesUnder(p[j], w, m);
      assert rows[j] == p[j];
    }
  }

  /** The rolls filed from rows whose length cells are all filled have a length. */
  lemma {:induction false} RollsAtLengths(rows: seq<Entry>, w: string, m: string)
    requires forall j :: 0 <= j < |rows| && Kept(rows[j]) ==> rows[j].length.Some?
    ensures forall i :: 0 <= i < |RollsAt(rows, w, m)| ==> RollsAt(rows, w, m)[i].length.Some?
    decreases |rows|
  {
    if rows != [] {
      RollsAtLengths(rows[..|rows| - 1], w, m);
    }
  }

  /** With every kept row present, a width and material that are absent have no rolls. */
  lemma AbsentEmpty(rows: seq<Entry>, specs: RollSpecs, w: string, m: string)
    requires Complete(rows, specs)
    requires !(w in specs && m in specs[w])
    ensures RollsAt(rows, w, m) == []
  {
    if RollsAt(rows, w, m) != [] {
      RollsAtWitness(rows, w, m);
    }
  }

  /** A row leaves the rolls of every other width and material as they were. */
  lemma InsertElsewhere(g: Stock, row: Entry, w: string, m: string)
    requires !FilesUnder(row, w, m)
    ensures (w in Insert(g, row).specs && m in Insert(g, row).specs[w]) <==> (w in g.specs && m in g.specs[w])
    ensures RollsOf(Insert(g, row), w, m) == RollsOf(g, w, m)
  {
  }

  /** The rolls under one width and material after one more row. */
  lemma NumberingAt(rows: seq<Entry>, g: Stock, row: Entry, w: string, m: string)
    requires w in Insert(g, row).specs && m in Insert(g, row).specs[w]
    requires w in g.specs && m in g.specs[w] ==>
               RollsAt(rows, w, m) != [] && g.specs[w][m] == Numbered(RollsAt(rows, w, m))
    requires !(w in g.specs && m in g.specs[w]) ==> RollsAt(rows, w, m) == []
    ensures RollsAt(rows + [row], w, m) != []
    ensures Insert(g, row).specs[w][m] == Numbered(RollsAt(rows + [row], w, m))
  {
    RollsAtSnoc(rows, row, w, m);
    if FilesUnder(row, w, m) {
      assert RollsAt(rows + [row], w, m) == RollsAt(rows, w, m) + [RollOf(row)];
      NumberingHere(rows, g, row);
    } else {
      assert RollsAt(rows + [row], w, m) == RollsAt(rows, w, m);
      InsertElsewhere(g, row, w, m);
      assert w in g.specs && m in g.specs[w];
      NumberingElsewhere(rows, g, row, w, m);
    }
  }

  /** The rolls under the row's own width and material after the row. */
  lemma NumberingHere(rows: seq<Entry>, g: Stock, row: Entry)
    requires Kept(row)
    requires var w, m := row.width, row.material;
             (w in g.specs && m in g.specs[w] ==> g.specs[w][m] == Numbered(RollsAt(rows, w, m)))
             && (!(w in g.specs && m in g.specs[w]) ==> RollsAt(rows, w, m) == [])
    ensures Insert(g, row).specs[row.width][row.material] == Numbered(RollsAt(rows + [row], row.width, row.material))
  {
    assert RollsOf(g, row.width, row.material) == Numbered(RollsAt(rows, row.width, row.material));
    InsertFiles(rows, g, row);
  }

  /** The rolls under a width and material the row does not file under, after the row. */
  lemma NumberingElsewhere(rows: seq<Entry>, g: Stock, row: Entry, w: string, m: string)
    requires !FilesUnder(row, w, m)
    requires w in Insert(g, row).specs && m in Insert(g, row).specs[w]
    requires w in g.specs && m in g.specs[w] ==> g.specs[w][m] == Numbered(RollsAt(rows, w, m))
    ensures Insert(g, row).specs[w][m] == Numbered(RollsAt(rows, w, m))
  {
    InsertElsewhere(g, row, w, m);
    assert RollsOf(Insert(g, row), w, m) == Insert(g, row).specs[w][m];
  }

  lemma InsertNumbering(rows: seq<Entry>, g: Stock, row: Entry)
    requires Numbering(rows, g.specs) && Complete(rows, g.specs)
    ensures Numbering(rows + [row], Insert(g, row).specs)
  {
    var specs' := Insert(g, row).specs;
    forall w, m | w in specs' && m in specs'[w]
      ensures RollsAt(rows + [row], w, m) != [] && specs'[w][m] == Numbered(RollsAt(rows + [row], w, m))
    {
      if !(w in g.specs && m in g.specs[w]) {
        AbsentEmpty(rows, g.specs, w, m);
      }
      NumberingAt(rows, g, row, w, m);
    }
  }

  lemma InsertSeen(rows: seq<Entry>, g: Stock, row: Entry)
    requires WidthsSeen(rows, g.specs)
    ensures WidthsSeen(rows + [row], Insert(g, row).specs)
  {
    var specs' := Insert(g, row).specs;
    forall w | w in specs' ensures specs'[w].Keys != {} && FirstOf(rows + [row], w) < |rows| + 1 {
      FirstOfSnoc(rows, row, w);
      if Kept(row) && w == row.width {
        assert row.material in specs'[w];
      }
    }
  }

  lemma InsertComplete(rows: seq<Entry>, g: Stock, row: Entry)
    requires Complete(rows, g.specs)
    ensures Complete(rows + [row], Insert(g, row).specs)
  {
    var rows', specs' := rows + [row], Insert(g, row).specs;
    forall j | 0 <= j < |rows'| && Kept(rows'[j])
      ensures rows'[j].width in specs' && rows'[j].material in specs'[rows'[j].width]
    {
      if j < |rows| {
        assert rows'[j] == rows[j];
      }
    }
  }

  /** One more row lists a new width exactly when it is kept and its width is absent. */
  lemma InsertListed(g: Stock, row: Entry)
    requires Listed(g)
    ensures Listed(Insert(g, row))
  {
  }

  /** The first row of a width already present does not move when a row is added. */
  lemma FirstOfPresent(rows: seq<Entry>, specs: RollSpecs, row: Entry)
    requires WidthsSeen(rows, specs)
    ensures forall w :: w in specs ==> FirstOf(rows + [row], w) == FirstOf(rows, w)
  {
    forall w | w in specs ensures FirstOf(rows + [row], w) == FirstOf(rows, w) {
      FirstOfSnoc(rows, row, w);
    }
  }

  /** A new width goes last, after every width already listed. */
  lemma AppendInOrder(rows: seq<Entry>, widths: seq<string>, w: string)
    requires InFirstOrder(rows, widths)
    requires forall x :: x in widths ==> FirstOf(rows, x) < FirstOf(rows, w)
    ensures InFirstOrder(rows, widths + [w])
  {
    var ws := widths + [w];
    forall p, q | 0 <= p < q < |ws| ensures FirstOf(rows, ws[p]) < FirstOf(rows, ws[q]) {
      assert ws[p] == widths[p] && widths[p] in widths;
      if q < |widths| {
        assert ws[q] == widths[q];
      }
    }
  }

  /** Keeping the widths in first-row order when the first rows do not move. */
  lemma SameFirstInOrder(rows: seq<Entry>, rows': seq<Entry>, widths: seq<string>)
    requires InFirstOrder(rows, widths)
    requires forall x :: x in widths ==> FirstOf(rows', x) == FirstOf(rows, x)
    ensures InFirstOrder(rows', widths)
  {
    forall p, q | 0 <= p < q < |widths| ensures FirstOf(rows', widths[p]) < FirstOf(rows', widths[q]) {
      assert widths[p] in widths && widths[q] in widths;
    }
  }

  lemma InsertOrder(rows: seq<Entry>, g: Stock, row: Entry)
    requires WidthsSeen(rows, g.specs) && Complete(rows, g.specs) && Listed(g) && InFirstOrder(rows, g.widths)
    ensures InFirstOrder(rows + [row], Insert(g, row).widths)
  {
    var rows' := rows + [row];
    FirstOfPresent(rows, g.specs, row);
    SameFirstInOrder(rows, rows', g.widths);
    if Kept(row) && row.width !in g.specs {
      var w := row.width;
      assert FirstOf(rows, w) == |rows|;
      FirstOfSnoc(rows, row, w);
      assert forall x :: x in g.widths ==> FirstOf(rows', x) < |rows| == FirstOf(rows', w);
      AppendInOrder(rows', g.widths, w);
    }
  }

  /** Folding one more row keeps the grouping exact. */
  lemma InsertGrouped(rows: seq<Entry>, g: Stock, row: Entry)
    requires Grouped(rows, g)
    ensures Grouped(rows + [row], Insert(g, row))
  {
    InsertSeen(rows, g, row);
    InsertNumbering(rows, g, row);
    InsertComplete(rows, g, row);
    InsertListed(g, row);
    InsertOrder(rows, g, row);
  }

  /** The loop's step: grouping one more of the rows. */
  lemma GroupedStep(entries: seq<Entry>, i: nat, g: Stock)
    requires i < |entries| && Grouped(entries[..i], g)
    ensures Grouped(entries[..i + 1], Insert(g, entries[i]))
  {
    InsertGrouped(entries[..i], g, entries[i]);
    Snoc(entries, i);
  }

  /** A row with a blank roll number leaves the grouping as it is. */
  lemma BlankRowIgnored(rows: seq<Entry>, g: Stock, row: Entry)
    requires Grouped(rows, g)
    requires !Kept(row)
    ensures Grouped(rows + [row], g)
  {
    InsertGrouped(rows, g, row);
  }

  /** The tail of a list in first-row order is in first-row order. */
  lemma InFirstOrderTail(rows: seq<Entry>, a: seq<string>)
    requires a != [] && InFirstOrder(rows, a)
    ensures InFirstOrder(rows, a[1..])
  {
    forall p, q | 0 <= p < q < |a| - 1 ensures FirstOf(rows, a[1..][p]) < FirstOf(rows, a[1..][q]) {
      assert a[1..][p] == a[p + 1] && a[1..][q] == a[q + 1];
    }
  }

  /** The head of a list in first-row order comes first among its members. */
  lemma HeadFirst(rows: seq<Entry>, a: seq<string>, x: string)
    requires a != [] && InFirstOrder(rows, a)
    requires x in a && x != a[0]
    ensures FirstOf(rows, a[0]) < FirstOf(rows, x)
  {
    var k :| 0 <= k < |a| && a[k] == x;
  }

  /** Two lists in first-row order with the same members start alike. */
  lemma SameHead(rows: seq<Entry>, a: seq<string>, b: seq<string>)
    requires a != [] && b != []
    requires forall x :: x in a <==> x in b
    requires InFirstOrder(rows, a) && InFirstOrder(rows, b)
    ensures a[0] == b[0]
  {
    assert a[0] in b && b[0] in a;
    if a[0] != b[0] {
      HeadFirst(rows, a, b[0]);
      HeadFirst(rows, b, a[0]);
    }
  }

  /** With the same head, the tails of two lists in first-row order have the same members. */
  lemma SameTailMembers(rows: seq<Entry>, a: seq<string>, b: seq<string>, x: string)
    requires a != [] && b != [] && a[0] == b[0]
    requires forall y :: y in a <==> y in b
    requires InFirstOrder(rows, a)
    requires x in a[1..]
    ensures x in b[1..]
  {
    var k :| 0 <= k < |a| - 1 && a[1..][k] == x;
    assert a[k + 1] == x;
    assert x != a[0] by {
      assert FirstOf(rows, a[0]) < FirstOf(rows, a[k + 1]);
    }
    assert x in b;
    var k2 :| 0 <= k2 < |b| && b[k2] == x;
    assert b[1..][k2 - 1] == x;
  }

  /** Two width lists in first-row order with the same widths are the same list. */
  lemma {:induction false} OrderedUnique(rows: seq<Entry>, a: seq<string>, b: seq<string>)
    requires forall x :: x in a <==> x in b
    requires InFirstOrder(rows, a) && InFirstOrder(rows, b)
    ensures a == b
    decreases |a| + |b|
  {
    assert a == [] <==> b == [] by {
      if a != [] {
        assert a[0] in b;
      }
      if b != [] {
        assert b[0] in a;
      }
    }
    if a != [] {
      SameHead(rows, a, b);
      forall x ensures x in a[1..] <==> x in b[1..] {
        if x in a[1..] {
          SameTailMembers(rows, a, b, x);
        }
        if x in b[1..] {
          SameTailMembers(rows, b, a, x);
        }
      }
      InFirstOrderTail(rows, a);
      InFirstOrderTail(rows, b);
      OrderedUnique(rows, a[1..], b[1..]);
      assert a == [a[0]] + a[1..] && b == [b[0]] + b[1..];
    }
  }

  /** A material present in one grouping of the rows is present in any other. */
  lemma PresentInBoth(rows: seq<Entry>, specs1: RollSpecs, specs2: RollSpecs, w: string, m: string)
    requires Numbering(rows, specs1) && Complete(rows, specs2)
    requires w in specs1 && m in specs1[w]
    ensures w in specs2 && m in specs2[w]
  {
    RollsAtWitness(rows, w, m);
  }

  /** A grouped stock lists each width once, as the keys of `ROLL_SPECS` are. */
  lemma GroupedWidthsDistinct(rows: seq<Entry>, g: Stock)
    requires Grouped(rows, g)
    ensures Distinct(g.widths)
  {
    forall i, j | 0 <= i < j < |g.widths| ensures g.widths[i] != g.widths[j] {
      assert FirstOf(rows, g.widths[i]) < FirstOf(rows, g.widths[j]);
    }
  }

  lemma WidthsIn(rows: seq<Entry>, specs1: RollSpecs, specs2: RollSpecs)
    requires WidthsSeen(rows, specs1) && Numbering(rows, specs1) && Complete(rows, specs2)
    ensures specs1.Keys <= specs2.Keys
  {
    forall w | w in specs1 ensures w in specs2 {
      var m :| m in specs1[w];
      PresentInBoth(rows, specs1, specs2, w, m);
    }
  }

  lemma SameWidth(rows: seq<Entry>, specs1: RollSpecs, specs2: RollSpecs, w: string)
    requires Numbering(rows, specs1) && Complete(rows, specs1)
    requires Numbering(rows, specs2) && Complete(rows, specs2)
    requires w in specs1 && w in specs2
    ensures specs1[w] == specs2[w]
  {
    forall m | m in specs1[w] ensures m in specs2[w] && specs1[w][m] == specs2[w][m] {
      PresentInBoth(rows, specs1, specs2, w, m);
    }
    forall m | m in specs2[w] ensures m in specs1[w] {
      PresentInBoth(rows, specs2, specs1, w, m);
    }
  }

  /**
   * The grouping is determined by the rows: two stocks that both group the
   * same rows are equal, so the description above leaves no freedom.
   */
  lemma GroupedUnique(rows: seq<Entry>, g1: Stock, g2: Stock)
    requires Grouped(rows, g1) && Grouped(rows, g2)
    ensures g1 == g2
  {
    assert g1.specs == g2.specs by {
      WidthsIn(rows, g1.specs, g2.specs);
      WidthsIn(rows, g2.specs, g1.specs);
      forall w | w in g1.specs ensures g1.specs[w] == g2.specs[w] {
        SameWidth(rows, g1.specs, g2.specs, w);
      }
    }
    assert g1.widths == g2.widths by {
      OrderedUnique(rows, g1.widths, g2.widths);
    }
  }

  /** A table without kept rows gives an empty `ROLL_SPECS`. */
  lemma NoKeptRowsNoStock(rows: seq<Entry>, g: Stock)
    requires Grouped(rows, g)
    requires forall j :: 0 <= j < |rows| ==> !Kept(rows[j])
    ensures g == Stock(map[], [])
  {
    assert g.specs == map[];
    OrderedUnique(rows, g.widths, []);
  }

  /** The loop of `update_stock_data`: every cleaned row folded in, in file order. */
  method FoldRows(entries: seq<Entry>) returns (g: Stock)
    ensures Grouped(entries, g)
  {
    g := Stock(map[], []);
    for i := 0 to |entries|
      invariant Grouped(entries[..i], g)
    {
      GroupedStep(entries, i, g);
      g := Insert(g, entries[i]);
    }
    assert entries[..|entries|] == entries;
  }

  /**
   * `update_stock_data`: the grouping of the reloaded table, or an empty
   * `ROLL_SPECS` when there is no table or a required column is missing. It
   * replaces the current stock only when the two differ as dicts, which
   * ignores the order of the widths; so a reload that groups to the same
   * dict keeps the current width order.
   */
  method UpdateStockData(current: Stock, table: Option<StockTable>) returns (g: Stock)
    ensures table.None? || !(RequiredColumns <= table.value.columns) ==>
              g == (if current.specs == map[] then current else Stock(map[], []))
    ensures table.Some? && RequiredColumns <= table.value.columns ==>
              g == current || Grouped(CleanAll(table.value.rows), g)
    ensures table.Some? && RequiredColumns <= table.value.columns ==>
              forall reloaded :: Grouped(CleanAll(table.value.rows), reloaded) ==>
                g == (if reloaded.specs == current.specs then current else reloaded)
  {
    var reloaded := Stock(map[], []);
    if table.Some? && RequiredColumns <= table.value.columns {
      var rows := CleanAll(table.value.rows);
      reloaded := FoldRows(rows);
      forall h | Grouped(rows, h) ensures h == reloaded {
        GroupedUnique(rows, h, reloaded);
      }
    }
    g := if current.specs != reloaded.specs then reloaded else current;
  }
}

=== FILE: suggestions.dfy ===
/**
 * Which (width, spec) settings the automated run tries, and which of them it
 * then skips: `get_all_suggestions` keeps, for every grouped order spec, the
 * stocked widths that carry all of the spec's materials, sorted by the
 * number formed from the width's digits; `calculate_length_for_suggestion`
 * turns a setting into a roll length, 0 meaning "not enough stock".
 */
module Suggestions {
  import opened Text
  import opened Layers
  import opened Stock

  /** The length handed to the solver for a setting the stock can serve. */
  const Unlimited: int := 1000000000

  /** A setting to test: a roll width and the order spec's material per layer. */
  datatype Suggestion = Suggestion(width: string, spec: Layers<string>)

  /** A width the stock can serve a spec at: every material used has at least one roll of that width. */
  predicate Feasible(width: string, spec: Layers<string>, specs: RollSpecs) {
    && width != ""
    && width in specs
    && Materials(spec) != {}
    && forall m :: m in Materials(spec) ==> m in specs[width] && specs[width][m] != map[]
  }

  /** The non-empty names of `s`, each once, in the order of first appearance (the keys of a `Counter`). */
  function Unique(s: seq<string>): (r: seq<string>)
    ensures forall m :: m in r <==> m in s && m != ""
    ensures forall i, j :: 0 <= i < j < |r| ==> r[i] != r[j]
    decreases |s|
  {
    if s == [] then []
    else
      var rest := Unique(s[..|s| - 1]);
      var last := s[|s| - 1];
      assert forall m :: m in s <==> m in s[..|s| - 1] || m == last;
      if last == "" || last in rest then rest else rest + [last]
  }

  /** The rolls of material `m` at one width are present and not empty (`if material_rolls:`). */
  predicate Stocked(byWidth: map<string, map<nat, Roll>>, m: string) {
    m in byWidth && byWidth[m] != map[]
  }

  /**
   * Some roll has an empty length cell. `min` over the lengths then raises a
   * `TypeError` (comparing with `None`), and so does `min_length * roll_used`
   * when that roll is the only one.
   */
  predicate LengthMissing(rolls: map<nat, Roll>) {
    exists k :: k in rolls && rolls[k].length.None?
  }

  /**
   * What `calculate_length_for_suggestion` does: return a length, or raise a
   * `TypeError` that no caller catches.
   */
  datatype Outcome = Returns(length: int) | Raises

  /**
   * The check raises: walking the materials in `Counter` order (first
   * appearance), it reaches a material with rolls, one of them without a
   * length, before any material without rolls.
   */
  ghost predicate RaisesOn(width: string, spec: Layers<string>, specs: RollSpecs) {
    var unique := Unique(spec.InOrder());
    && width != ""
    && width in specs
    && exists k :: 0 <= k < |unique|
         && (forall j :: 0 <= j <= k ==> Stocked(specs[width], unique[j]))
         && LengthMissing(specs[width][unique[k]])
  }

  /** Every roll of the materials the spec uses at this width has a length. */
  ghost predicate LengthsKnown(width: string, spec: Layers<string>, specs: RollSpecs)
    requires width in specs
  {
    forall m :: m in Materials(spec) && m in specs[width] ==> !LengthMissing(specs[width][m])
  }

  /**
   * `calculate_length_for_suggestion`: 0 when the spec uses no material, the
   * width is blank or not stocked, or some material has no roll at that
   * width; otherwise the fixed length 1000000000, unless a roll without a
   * length makes it raise first.
   */
  method CalculateLengthForSuggestion(width: string, spec: Layers<string>, specs: RollSpecs) returns (r: Outcome)
    ensures r.Returns? ==> r.length == 0 || r.length == Unlimited
    ensures r.Raises? <==> RaisesOn(width, spec, specs)
    ensures r == Returns(Unlimited) <==> Feasible(width, spec, specs) && LengthsKnown(width, spec, specs)
  {
    var unique := Unique(spec.InOrder());
    assert forall m :: m in unique <==> m in Materials(spec);
    if |unique| == 0 || width == "" {
      return Returns(0);
    }
    if width !in specs {
      return Returns(0);
    }
    var byWidth := specs[width];
    var found := 0;
    for i := 0 to |unique|
      invariant found == i
      invariant forall k :: 0 <= k < i ==> Stocked(byWidth, unique[k]) && !LengthMissing(byWidth[unique[k]])
    {
      var m := unique[i];
      if !Stocked(byWidth, m) {
        assert !RaisesOn(width, spec, specs) by {
          forall k | 0 <= k < |unique| && (forall j :: 0 <= j <= k ==> Stocked(byWidth, unique[j]))
            ensures !LengthMissing(byWidth[unique[k]])
          {
            assert k < i;
          }
        }
        return Returns(0);
      }
      if LengthMissing(byWidth[m]) {
        assert m in Materials(spec);
        return Raises;
      }
      found := found + 1;
    }
    assert unique[0] in Materials(spec);
    assert LengthsKnown(width, spec, specs) by {
      forall m | m in Materials(spec) && m in byWidth ensures !LengthMissing(byWidth[m]) {
        var k :| 0 <= k < |unique| && unique[k] == m;
      }
    }
    return if found > 0 then Returns(Unlimited) else Returns(0);
  }

  /** The digit characters of `s`, in order: `re.sub(r'\D', '', s)`. */
  function DigitsOnly(s: string): (r: string)
    ensures AllDigits(r)
    decreases |s|
  {
    if s == [] then []
    else DigitsOnly(s[..|s| - 1]) + (if IsDigit(s[|s| - 1]) then [s[|s| - 1]] else [])
  }

  /** The sort key of a width: `int(re.sub(r'\D', '', w) or 0)`. */
  function SortKey(w: string): nat {
    DigitsValue(DigitsOnly(w))
  }

  lemma {:induction false} DigitsOnlyDigits(s: string)
    requires AllDigits(s)
    ensures DigitsOnly(s) == s
    decreases |s|
  {
    if s != [] {
      DigitsOnlyDigits(s[..|s| - 1]);
      assert s == s[..|s| - 1] + [s[|s| - 1]];
    }
  }

  /** A width written as a plain number sorts by that number. */
  lemma SortKeyOfNumber(n: nat)
    ensures SortKey(NatToString(n)) == n
  {
    DigitsOnlyDigits(NatToString(n));
  }

  /** `x` placed before the first width whose key is not smaller. */
  function InsertByKey(key: string -> nat, x: string, s: seq<string>): seq<string>
    decreases |s|
  {
    if s == [] then [x]
    else if key(x) <= key(s[0]) then [x] + s
    else [s[0]] + InsertByKey(key, x, s[1..])
  }

  /** `sorted(s, key=key)`, built by insertion. */
  function SortByKey(key: string -> nat, s: seq<string>): seq<string>
    decreases |s|
  {
    if s == [] then [] else InsertByKey(key, s[0], SortByKey(key, s[1..]))
  }

  /** Inserting adds exactly one copy of `x`. */
  lemma {:induction false} InsertPerm(key: string -> nat, x: string, s: seq<string>)
    ensures multiset(InsertByKey(key, x, s)) == multiset(s) + multiset{x}
    decreases |s|
  {
    if s != [] && key(x) > key(s[0]) {
      InsertPerm(key, x, s[1..]);
      assert s == [s[0]] + s[1..];
    }
  }

  /** The sort is a permutation of its input. */
  lemma {:induction false} SortPerm(key: string -> nat, s: seq<string>)
    ensures multiset(SortByKey(key, s)) == multiset(s)
    decreases |s|
  {
    if s != [] {
      SortPerm(key, s[1..]);
      InsertPerm(key, s[0], SortByKey(key, s[1..]));
      assert s == [s[0]] + s[1..];
    }
  }

  predicate SortedByKey(key: string -> nat, s: seq<string>) {
    forall i, j :: 0 <= i < j < |s| ==> key(s[i]) <= key(s[j])
  }

  /** Inserting adds `x` and keeps every width that was there. */
  lemma InsertMembers(key: string -> nat, x: string, s: seq<string>)
    ensures forall y :: y in InsertByKey(key, x, s) <==> y == x || y in s
  {
    var r := InsertByKey(key, x, s);
    InsertPerm(key, x, s);
    forall y ensures y in r <==> y == x || y in s {
      assert y in r <==> y in multiset(r);
      assert y in s <==> y in multiset(s);
    }
  }

  lemma {:induction false} InsertSorted(key: string -> nat, x: string, s: seq<string>)
    requires SortedByKey(key, s)
    ensures SortedByKey(key, InsertByKey(key, x, s))
    decreases |s|
  {
    if s != [] && key(x) > key(s[0]) {
      var t := InsertByKey(key, x, s[1..]);
      InsertSorted(key, x, s[1..]);
      InsertMembers(key, x, s[1..]);
      forall j | 0 <= j < |t| ensures key(s[0]) <= key(t[j]) {
        assert t[j] in t;
        if t[j] != x {
          var k :| 0 <= k < |s[1..]| && s[1..][k] == t[j];
          assert s[k + 1] == t[j];
        }
      }
      assert InsertByKey(key, x, s) == [s[0]] + t;
    }
  }

  /** The sort puts the widths in ascending key order. */
  lemma {:induction false} SortSorted(key: string -> nat, s: seq<string>)
    ensures SortedByKey(key, SortByKey(key, s))
    decreases |s|
  {
    if s != [] {
      SortSorted(key, s[1..]);
      InsertSorted(key, s[0], SortByKey(key, s[1..]));
    }
  }

  /** The widths of `s` with key `k`, in their order in `s`. */
  function WithKey(key: string -> nat, s: seq<string>, k: nat): seq<string>
    decreases |s|
  {
    if s == [] then []
    else (if key(s[0]) == k then [s[0]] else []) + WithKey(key, s[1..], k)
  }

  lemma WithKeyCons(key: string -> nat, y: string, t: seq<string>, k: nat)
    ensures WithKey(key, [y] + t, k) == (if key(y) == k then [y] else []) + WithKey(key, t, k)
  {
    assert ([y] + t)[1..] == t;
  }

  lemma SwapEmpty<T>(a: seq<T>, b: seq<T>, c: seq<T>)
    requires a == [] || b == []
    ensures a + (b + c) == b + (a + c)
  {
  }

  /** Inserting `x` puts it first among the widths sharing its key. */
  lemma {:induction false} InsertWithKey(key: string -> nat, x: string, s: seq<string>, k: nat)
    ensures WithKey(key, InsertByKey(key, x, s), k) == (if key(x) == k then [x] else []) + WithKey(key, s, k)
    decreases |s|
  {
    var xs := if key(x) == k then [x] else [];
    if s != [] && key(x) > key(s[0]) {
      var t := InsertByKey(key, x, s[1..]);
      var head := if key(s[0]) == k then [s[0]] else [];
      assert InsertByKey(key, x, s) == [s[0]] + t;
      WithKeyCons(key, s[0], t, k);
      InsertWithKey(key, x, s[1..], k);
      assert xs != [] ==> head == [];
      SwapEmpty(head, xs, WithKey(key, s[1..], k));
    } else if s != [] {
      assert InsertByKey(key, x, s) == [x] + s;
      WithKeyCons(key, x, s, k);
    }
  }

  /** The sort is stable: the widths sharing a key keep their relative order. */
  lemma {:induction false} SortStable(key: string -> nat, s: seq<string>, k: nat)
    ensures WithKey(key, SortByKey(key, s), k) == WithKey(key, s, k)
    decreases |s|
  {
    if s != [] {
      SortStable(key, s[1..], k);
      InsertWithKey(key, s[0], SortByKey(key, s[1..]), k);
    }
  }

  /** Inserting a width not yet present keeps the widths distinct. */
  lemma {:induction false} InsertDistinct(key: string -> nat, x: string, s: seq<string>)
    requires Distinct(s) && x !in s
    ensures Distinct(InsertByKey(key, x, s))
    decreases |s|
  {
    if s != [] && key(x) > key(s[0]) {
      var t := InsertByKey(key, x, s[1..]);
      InsertDistinct(key, x, s[1..]);
      InsertMembers(key, x, s[1..]);
      assert s[0] !in t by {
        assert s[0] != x;
        assert s[0] !in s[1..];
      }
      assert InsertByKey(key, x, s) == [s[0]] + t;
    }
  }

  /** Sorting distinct widths gives distinct widths. */
  lemma {:induction false} SortDistinct(key: string -> nat, s: seq<string>)
    requires Distinct(s)
    ensures Distinct(SortByKey(key, s))
    decreases |s|
  {
    if s != [] {
      SortDistinct(key, s[1..]);
      SortMembers(key, s[1..]);
      assert s[0] !in s[1..];
      InsertDistinct(key, s[0], SortByKey(key, s[1..]));
    }
  }

  /** A stocked width that carries every material of the spec. */
  predicate Carries(stock: Stock, w: string, spec: Layers<string>) {
    w in stock.specs && Materials(spec) <= stock.specs[w].Keys
  }

  /** The widths, in stock order, whose materials include the spec's (`spec_materials.issubset(...)`). */
  function AvailableWidths(spec: Layers<string>, stock: Stock, widths: seq<string>): (r: seq<string>)
    ensures forall w :: w in r <==> w in widths && Carries(stock, w, spec)
    decreases |widths|
  {
    if widths == [] then []
    else
      var rest := AvailableWidths(spec, stock, widths[1..]);
      assert forall w :: w in widths <==> w == widths[0] || w in widths[1..];
      if Carries(stock, widths[0], spec) then [widths[0]] + rest else rest
  }

  /** Filtering distinct widths gives distinct widths. */
  lemma {:induction false} AvailableDistinct(spec: Layers<string>, stock: Stock, widths: seq<string>)
    requires Distinct(widths)
    ensures Distinct(AvailableWidths(spec, stock, widths))
    decreases |widths|
  {
    if widths != [] {
      AvailableDistinct(spec, stock, widths[1..]);
      assert widths[0] !in widths[1..];
    }
  }

  /** The spec tried at each of the widths, in order. */
  function AtWidths(ws: seq<string>, spec: Layers<string>): (r: seq<Suggestion>)
    ensures |r| == |ws|
    ensures forall i :: 0 <= i < |ws| ==> r[i] == Suggestion(ws[i], spec)
  {
    seq(|ws|, i requires 0 <= i < |ws| => Suggestion(ws[i], spec))
  }

  /** The widths of some settings, in order. */
  function WidthsOf(ss: seq<Suggestion>): (r: seq<string>)
    ensures |r| == |ss|
    ensures forall i :: 0 <= i < |ss| ==> r[i] == ss[i].width
  {
    seq(|ss|, i requires 0 <= i < |ss| => ss[i].width)
  }

  /** The settings generated for one grouped spec: none without a material, else one per sorted width. */
  function ForSpec(spec: Layers<string>, stock: Stock): seq<Suggestion> {
    if Materials(spec) == {} then []
    else AtWidths(SortByKey(SortKey, AvailableWidths(spec, stock, stock.widths)), spec)
  }

  /** `get_all_suggestions` after the grouping: the settings of each spec in turn. */
  function GetAllSuggestions(specs: seq<Layers<string>>, stock: Stock): seq<Suggestion>
    decreases |specs|
  {
    if specs == [] then [] else ForSpec(specs[0], stock) + GetAllSuggestions(specs[1..], stock)
  }

  /** The widths one spec is tried at: ascending by key, ties in stock order, each width that carries the spec. */
  lemma ForSpecOrder(spec: Layers<string>, stock: Stock)
    requires Materials(spec) != {}
    ensures var ws := WidthsOf(ForSpec(spec, stock));
            var avail := AvailableWidths(spec, stock, stock.widths);
            && SortedByKey(SortKey, ws)
            && multiset(ws) == multiset(avail)
            && (forall k :: WithKey(SortKey, ws, k) == WithKey(SortKey, avail, k))
            && (Distinct(stock.widths) ==> Distinct(ws))
  {
    var avail := AvailableWidths(spec, stock, stock.widths);
    var ws := SortByKey(SortKey, avail);
    assert WidthsOf(ForSpec(spec, stock)) == ws;
    SortSorted(SortKey, avail);
    SortPerm(SortKey, avail);
    if Distinct(stock.widths) {
      AvailableDistinct(spec, stock, stock.widths);
      SortDistinct(SortKey, avail);
    }
    forall k ensures WithKey(SortKey, ws, k) == WithKey(SortKey, avail, k) {
      SortStable(SortKey, avail, k);
    }
  }

  /** Sorting keeps exactly the widths it was given. */
  lemma SortMembers(key: string -> nat, s: seq<string>)
    ensures forall w :: w in SortByKey(key, s) <==> w in s
  {
    SortPerm(key, s);
    forall w ensures w in SortByKey(key, s) <==> w in s {
      assert w in SortByKey(key, s) <==> w in multiset(SortByKey(key, s));
      assert w in s <==> w in multiset(s);
    }
  }

  /** The settings of one spec are that spec at exactly the stocked widths that carry it, if it uses a material. */
  lemma ForSpecMembers(spec: Layers<string>, stock: Stock)
    ensures forall s :: s in ForSpec(spec, stock) <==>
              Materials(spec) != {} && s.spec == spec && s.width in stock.widths && Carries(stock, s.width, spec)
  {
    if Materials(spec) != {} {
      var avail := AvailableWidths(spec, stock, stock.widths);
      var ws := SortByKey(SortKey, avail);
      var r := ForSpec(spec, stock);
      SortMembers(SortKey, avail);
      forall s ensures s in r <==> s.spec == spec && s.width in stock.widths && Carries(stock, s.width, spec) {
        if s in r {
          var j :| 0 <= j < |r| && r[j] == s;
          assert ws[j] in ws;
        }
        if s.spec == spec && s.width in avail {
          var j :| 0 <= j < |ws| && ws[j] == s.width;
          assert r[j] == s;
        }
      }
    }
  }

  /** Every generated setting comes from a listed spec that uses some material, at a stocked width that carries all of them. */
  lemma {:induction false} SuggestionsSound(specs: seq<Layers<string>>, stock: Stock)
    ensures forall s :: s in GetAllSuggestions(specs, stock) ==>
              s.spec in specs && Materials(s.spec) != {} && s.width in stock.widths && Carries(stock, s.width, s.spec)
    decreases |specs|
  {
    if specs != [] {
      SuggestionsSound(specs[1..], stock);
      ForSpecMembers(specs[0], stock);
      assert forall x :: x in specs[1..] ==> x in specs;
    }
  }

  /** Every listed spec that uses a material is tried at every stocked width that carries it. */
  lemma {:induction false} SuggestionsComplete(specs: seq<Layers<string>>, stock: Stock)
    ensures forall i, w :: 0 <= i < |specs| && Materials(specs[i]) != {} && w in stock.widths && Carries(stock, w, specs[i])
              ==> Suggestion(w, specs[i]) in GetAllSuggestions(specs, stock)
    decreases |specs|
  {
    if specs != [] {
      SuggestionsComplete(specs[1..], stock);
      ForSpecMembers(specs[0], stock);
      forall i, w | 0 < i < |specs| && Materials(specs[i]) != {} && w in stock.widths && Carries(stock, w, specs[i])
        ensures Suggestion(w, specs[i]) in GetAllSuggestions(specs, stock)
      {
        assert specs[i] == specs[1..][i - 1];
      }
    }
  }

  lemma NumberedNonEmpty(rolls: seq<Roll>)
    requires rolls != []
    ensures Numbered(rolls) != map[]
  {
    assert 1 in Numbered(rolls);
  }

  /**
   * On stock grouped from a table, a generated setting passes
   * `calculate_length_for_suggestion` exactly when its width is not blank:
   * the subset test on material names is enough, because the grouping never
   * keeps a material without rolls; a blank roll size does group under the
   * width "", which the length check then refuses. Only the numbering part of
   * `Grouped` is needed.
   */
  lemma GroupedSuggestionsFeasible(rows: seq<Entry>, stock: Stock, specs: seq<Layers<string>>, s: Suggestion)
    requires Numbering(rows, stock.specs)
    requires s in GetAllSuggestions(specs, stock)
    ensures Feasible(s.width, s.spec, stock.specs) <==> s.width != ""
  {
    assert Materials(s.spec) != {} && Carries(stock, s.width, s.spec) by {
      SuggestionsSound(specs, stock);
    }
    forall m | m in Materials(s.spec) ensures stock.specs[s.width][m] != map[] {
      NumberedNonEmpty(RollsAt(rows, s.width, m));
    }
  }

  /**
   * When every kept row of the table has a length, the length check never
   * raises on grouped stock: it returns 1000000000 exactly for the settings
   * whose width is not blank.
   */
  lemma GroupedSuggestionsLength(rows: seq<Entry>, stock: Stock, specs: seq<Layers<string>>, s: Suggestion)
    requires Numbering(rows, stock.specs)
    requires forall j :: 0 <= j < |rows| && Kept(rows[j]) ==> rows[j].length.Some?
    requires s in GetAllSuggestions(specs, stock)
    ensures !RaisesOn(s.width, s.spec, stock.specs)
    ensures Feasible(s.width, s.spec, stock.specs) && LengthsKnown(s.width, s.spec, stock.specs) <==> s.width != ""
  {
    GroupedSuggestionsFeasible(rows, stock, specs, s);
    assert s.width in stock.specs by {
      SuggestionsSound(specs, stock);
    }
    var byWidth := stock.specs[s.width];
    forall m | m in byWidth ensures !LengthMissing(byWidth[m]) {
      var rolls := RollsAt(rows, s.width, m);
      RollsAtLengths(rows, s.width, m);
      forall k | k in byWidth[m] ensures byWidth[m][k].length.Some? {
        assert byWidth[m][k] == rolls[k - 1];
      }
    }
  }
}

=== FILE: text.dfy ===
/**
 * The small part of Python's string library that the trace formatter and the
 * stock helpers rely on: `str.isspace`/`str.strip`, `in`, `str.find`,
 * `str.split`, `str.join`, `str.replace(pat, '')`, and reading and printing
 * decimal numbers.
 */
module Text {
  import opened Options

  /** Python's `str.isspace()`; `\s` in a `str` regular expression matches the same characters. */
  predicate IsSpace(c: char) {
    || ('\t' <= c <= '\r')
    || ('\U{1C}' <= c <= ' ')
    || c == '\U{85}' || c == '\U{A0}' || c == '\U{1680}'
    || ('\U{2000}' <= c <= '\U{200A}')
    || c == '\U{2028}' || c == '\U{2029}' || c == '\U{202F}' || c == '\U{205F}' || c == '\U{3000}'
  }

  /** `s.lstrip()`: drop the longest prefix of whitespace. */
  function TrimStart(s: string): (r: string)
    ensures |r| <= |s| && r == s[|s| - |r|..]
    ensures forall i :: 0 <= i < |s| - |r| ==> IsSpace(s[i])
    ensures r == [] || !IsSpace(r[0])
  {
    if s != [] && IsSpace(s[0]) then TrimStart(s[1..]) else s
  }

  /** `s.rstrip()`: drop the longest suffix of whitespace. */
  function TrimEnd(s: string): (r: string)
    ensures |r| <= |s| && r == s[..|r|]
    ensures forall i :: |r| <= i < |s| ==> IsSpace(s[i])
    ensures r == [] || !IsSpace(r[|r| - 1])
  {
    if s != [] && IsSpace(s[|s| - 1]) then TrimEnd(s[..|s| - 1]) else s
  }

  /** `s.strip()`. */
  function Strip(s: string): string {
    TrimEnd(TrimStart(s))
  }

  /** A string `strip()` leaves alone: no whitespace at either end. */
  predicate IsStripped(s: string) {
    s == [] || (!IsSpace(s[0]) && !IsSpace(s[|s| - 1]))
  }

  predicate OccursAt(s: string, sub: string, i: int) {
    0 <= i && i + |sub| <= |s| && s[i..i + |sub|] == sub
  }

  /** Python's `sub in s`. */
  predicate Contains(s: string, sub: string) {
    exists i | 0 <= i <= |s| - |sub| :: OccursAt(s, sub, i)
  }

  /** The first occurrence of `sub` in `s` at or after `from`. */
  function FindFrom(s: string, sub: string, from: nat): (r: Option<nat>)
    requires from <= |s|
    ensures r.Some? ==> from <= r.value && OccursAt(s, sub, r.value)
    ensures r.Some? ==> forall j :: from <= j < r.value ==> !OccursAt(s, sub, j)
    ensures r.None? ==> forall j :: from <= j ==> !OccursAt(s, sub, j)
    decreases |s| - from
  {
    if from + |sub| > |s| then None
    else if OccursAt(s, sub, from) then Some(from)
    else if from == |s| then None
    else FindFrom(s, sub, from + 1)
  }

  /** `s.find(sub)`, with `None` for Python's `-1`. */
  function Find(s: string, sub: string): (r: Option<nat>)
    ensures r.Some? <==> Contains(s, sub)
    ensures r.Some? ==> OccursAt(s, sub, r.value) && forall j :: 0 <= j < r.value ==> !OccursAt(s, sub, j)
  {
    FindFrom(s, sub, 0)
  }

  /** `sep.join(parts)`. */
  function Join(parts: seq<string>, sep: string): string {
    if |parts| == 0 then ""
    else if |parts| == 1 then parts[0]
    else parts[0] + (sep + Join(parts[1..], sep))
  }

  /**
   * `s.split(sep)` for a non-empty separator: cut at every occurrence, scanning
   * left to right. Joining the pieces back gives `s`; that no piece holds
   * `sep` is `TextFacts.SplitPiecesFree`.
   */
  function Split(s: string, sep: string): (r: seq<string>)
    requires sep != []
    ensures |r| >= 1
    ensures Join(r, sep) == s
    decreases |s|
  {
    match Find(s, sep)
    case None => [s]
    case Some(k) =>
      var head, rest := s[..k], s[k + |sep|..];
      assert s == head + (sep + rest) by {
        assert s[k..k + |sep|] == sep;
        assert s == s[..k] + s[k..k + |sep|] + s[k + |sep|..];
      }
      [head] + Split(rest, sep)
  }

  /** `s.split(sep, 1)`: the text before and after the first occurrence, if any. */
  function SplitOnce(s: string, sep: string): (r: Option<(string, string)>)
    requires sep != []
    ensures r.None? <==> !Contains(s, sep)
    ensures r.Some? ==> s == r.value.0 + sep + r.value.1 && !Contains(r.value.0, sep)
  {
    match Find(s, sep)
    case None => None
    case Some(k) =>
      var head, rest := s[..k], s[k + |sep|..];
      assert s == head + sep + rest by {
        assert s[k..k + |sep|] == sep;
        assert s == s[..k] + s[k..k + |sep|] + s[k + |sep|..];
      }
      assert !Contains(head, sep) by {
        forall j | 0 <= j <= |head| - |sep| ensures !OccursAt(head, sep, j) {
          assert head[j..j + |sep|] == s[j..j + |sep|];
          assert !OccursAt(s, sep, j);
        }
      }
      Some((head, rest))
  }

  /** `s.replace(pat, '')`: occurrences are removed left to right, without overlap. */
  function RemoveAll(s: string, pat: string): (r: string)
    requires pat != []
    ensures |r| <= |s|
    decreases |s|
  {
    if |s| < |pat| then s
    else if s[..|pat|] == pat then RemoveAll(s[|pat|..], pat)
    else [s[0]] + RemoveAll(s[1..], pat)
  }

  predicate IsAsciiDigit(c: char) {
    '0' <= c <= '9'
  }

  predicate IsThaiDigit(c: char) {
    '\U{0E50}' <= c <= '\U{0E59}'
  }

  /**
   * A decimal digit as `\d` and `int()` read one. Python accepts every Unicode
   * decimal digit; this model covers the ASCII and the Thai ones.
   */
  predicate IsDigit(c: char) {
    IsAsciiDigit(c) || IsThaiDigit(c)
  }

  function DigitValue(c: char): (d: nat)
    requires IsDigit(c)
    ensures d < 10
  {
    if IsAsciiDigit(c) then c as int - '0' as int else c as int - 0x0E50
  }

  predicate AllDigits(s: string) {
    forall i :: 0 <= i < |s| ==> IsDigit(s[i])
  }

  /** `int(s)` for a run of digits (most significant first). */
  function DigitsValue(s: string): nat
    requires AllDigits(s)
  {
    if s == [] then 0 else DigitsValue(s[..|s| - 1]) * 10 + DigitValue(s[|s| - 1])
  }

  /** The length of the longest prefix of digits: what a greedy `\d+` consumes. */
  function DigitRun(s: string): (n: nat)
    ensures n <= |s| && AllDigits(s[..n])
    ensures n == |s| || !IsDigit(s[n])
  {
    if s != [] && IsDigit(s[0]) then
      var n := 1 + DigitRun(s[1..]);
      assert s[..n] == [s[0]] + s[1..][..n - 1];
      n
    else 0
  }

  /** Python's `str(n)` for a natural number: ASCII digits, no leading zero. */
  function NatToString(n: nat): (r: string)
    ensures r != [] && AllDigits(r) && DigitsValue(r) == n
    ensures forall i :: 0 <= i < |r| ==> IsAsciiDigit(r[i])
    ensures r[0] != '0' || n == 0
  {
    if n < 10 then [('0' as int + n) as char]
    else
      var r := NatToString(n / 10) + [('0' as int + n % 10) as char];
      assert r[..|r| - 1] == NatToString(n / 10);
      r
  }

  /** Python's `str(i)` for an integer. */
  function IntToString(i: int): (r: string)
    ensures r != []
    ensures i < 0 <==> r[0] == '-'
    ensures i < 0 ==> r[1..] == NatToString(-i)
    ensures i >= 0 ==> r == NatToString(i)
  {
    if i < 0 then "-" + NatToString(-i) else NatToString(i)
  }
}

/** Facts about the string operations of `Text` that the trace readers rely on. */
module TextFacts {
  import opened Options
  import opened Text

  /** `strip()` leaves a stripped string alone. */
  lemma StripStripped(s: string)
    requires IsStripped(s)
    ensures Strip(s) == s
  {
    assert TrimStart(s) == s;
  }

  /** Leading whitespace stops inside `x` when `x` ends with a non-space. */
  lemma {:induction false} TrimStartConcat(x: string, y: string)
    requires x != [] && !IsSpace(x[|x| - 1])
    ensures TrimStart(x + y) == TrimStart(x) + y
    ensures TrimStart(x) != []
    decreases |x|
  {
    if IsSpace(x[0]) {
      assert (x + y)[1..] == x[1..] + y;
      TrimStartConcat(x[1..], y);
    }
  }

  /** One space in front of a non-space is all `lstrip()` removes. */
  lemma TrimStartOneSpace(y: string)
    requires y != [] && !IsSpace(y[0])
    ensures TrimStart(" " + y) == y
  {
    assert (" " + y)[1..] == y;
  }

  /** A greedy `\d+` over digits followed by a non-digit takes exactly the digits. */
  lemma {:induction false} DigitRunConcat(d: string, y: string)
    requires AllDigits(d)
    requires y == [] || !IsDigit(y[0])
    ensures DigitRun(d + y) == |d|
    decreases |d|
  {
    if d != [] {
      assert (d + y)[1..] == d[1..] + y;
      DigitRunConcat(d[1..], y);
    }
  }

  /** Removing a pattern that does not occur changes nothing. */
  lemma {:induction false} RemoveAllAbsent(s: string, pat: string)
    requires pat != []
    requires !Contains(s, pat)
    ensures RemoveAll(s, pat) == s
    decreases |s|
  {
    if |s| >= |pat| {
      assert !OccursAt(s, pat, 0);
      assert !Contains(s[1..], pat) by {
        forall j | 0 <= j <= |s[1..]| - |pat| ensures !OccursAt(s[1..], pat, j) {
          assert s[1..][j..j + |pat|] == s[j + 1..j + 1 + |pat|];
          assert !OccursAt(s, pat, j + 1);
        }
      }
      RemoveAllAbsent(s[1..], pat);
    }
  }

  /** The first occurrence of `sep` in `a + sep + b` is the one after `a` when none starts inside `a`. */
  lemma FindAfter(a: string, sep: string, b: string)
    requires forall j :: 0 <= j < |a| ==> !OccursAt(a + (sep + b), sep, j)
    ensures Find(a + (sep + b), sep) == Some(|a|)
  {
    var s := a + (sep + b);
    assert OccursAt(s, sep, |a|) by { assert s[|a|..|a| + |sep|] == sep; }
  }

  /** `s.split(sep, 1)` cuts `a + sep + b` after `a` when `a` never holds `sep`'s first character. */
  lemma SplitOnceAt(a: string, sep: string, b: string)
    requires sep != []
    requires forall i :: 0 <= i < |a| ==> a[i] != sep[0]
    ensures SplitOnce(a + (sep + b), sep) == Some((a, b))
  {
    var s := a + (sep + b);
    forall j | 0 <= j < |a| ensures !OccursAt(s, sep, j) {
      if j + |sep| <= |s| {
        assert s[j..j + |sep|][0] == s[j] == a[j];
      }
    }
    FindAfter(a, sep, b);
    assert s[..|a|] == a && s[|a| + |sep|..] == b;
  }

  /** No occurrence of `sep` at all when its character at `p` never appears in `s`. */
  lemma AbsentWithout(s: string, sep: string, p: nat)
    requires p < |sep|
    requires forall i :: 0 <= i < |s| ==> s[i] != sep[p]
    ensures !Contains(s, sep)
  {
    forall j | 0 <= j <= |s| - |sep| ensures !OccursAt(s, sep, j) {
      assert s[j..j + |sep|][p] == s[j + p];
    }
  }

  /** No occurrence of `sep` starts inside `a` in `a + sep + b` when `a` lacks `sep`'s character at `p` and `sep` has it only at `p`. */
  lemma NoOccurrenceBefore(a: string, sep: string, b: string, p: nat)
    requires 0 < p < |sep|
    requires forall q :: 0 <= q < p ==> sep[q] != sep[p]
    requires forall i :: 0 <= i < |a| ==> a[i] != sep[p]
    ensures forall j :: 0 <= j < |a| ==> !OccursAt(a + (sep + b), sep, j)
  {
    var s := a + (sep + b);
    forall j | 0 <= j < |a| ensures !OccursAt(s, sep, j) {
      if j + |sep| <= |s| {
        assert s[j + p] != sep[p] by {
          if j + p < |a| {
            assert s[j + p] == a[j + p];
          } else {
            assert s[j + p] == sep[j + p - |a|];
          }
        }
        assert s[j..j + |sep|][p] == s[j + p];
      }
    }
  }

  /** No piece of `s.split(sep)` holds `sep`. */
  lemma {:induction false} SplitPiecesFree(s: string, sep: string)
    requires sep != []
    ensures forall k :: 0 <= k < |Split(s, sep)| ==> !Contains(Split(s, sep)[k], sep)
    decreases |s|
  {
    if Find(s, sep).Some? {
      var k := Find(s, sep).value;
      var head, rest := s[..k], s[k + |sep|..];
      assert !Contains(head, sep) by {
        forall j | 0 <= j <= |head| - |sep| ensures !OccursAt(head, sep, j) {
          assert head[j..j + |sep|] == s[j..j + |sep|];
          assert j < k && !OccursAt(s, sep, j);
        }
      }
      SplitAtFirst(s, sep);
      SplitPiecesFree(rest, sep);
      var r := Split(s, sep);
      forall i | 0 <= i < |r| ensures !Contains(r[i], sep) {
        if i > 0 {
          assert r[i] == Split(rest, sep)[i - 1];
        }
      }
    }
  }

  /** One step of `Split` at the first occurrence. */
  lemma SplitAtFirst(s: string, sep: string)
    requires sep != [] && Find(s, sep).Some?
    ensures var k := Find(s, sep).value; Split(s, sep) == [s[..k]] + Split(s[k + |sep|..], sep)
  {
  }

  /** Cutting `a + sep + b` at `sep` gives `a` and then the pieces of `b`, when `a` lacks `sep`'s character at `p`. */
  lemma SplitCons(a: string, sep: string, b: string, p: nat)
    requires 0 < p < |sep|
    requires forall q :: 0 <= q < p ==> sep[q] != sep[p]
    requires forall i :: 0 <= i < |a| ==> a[i] != sep[p]
    ensures Split(a + (sep + b), sep) == [a] + Split(b, sep)
  {
    var s := a + (sep + b);
    assert Find(s, sep) == Some(|a|) by {
      NoOccurrenceBefore(a, sep, b, p);
      FindAfter(a, sep, b);
    }
    SplitAtFirst(s, sep);
    assert s[..|a|] == a;
    assert s[|a| + |sep|..] == b;
  }

  /** `sep.join` of pieces free of `sep`'s character at `p`, cut at `sep` again, gives back the pieces. */
  lemma {:induction false} SplitJoin(parts: seq<string>, sep: string, p: nat)
    requires 0 < p < |sep|
    requires forall q :: 0 <= q < p ==> sep[q] != sep[p]
    requires |parts| >= 1
    requires forall k, i :: 0 <= k < |parts| && 0 <= i < |parts[k]| ==> parts[k][i] != sep[p]
    ensures Split(Join(parts, sep), sep) == parts
    decreases |parts|
  {
    if |parts| == 1 {
      AbsentWithout(parts[0], sep, p);
    } else {
      var a, b := parts[0], Join(parts[1..], sep);
      assert Join(parts, sep) == a + (sep + b);
      assert Split(b, sep) == parts[1..] by {
        forall k, i | 0 <= k < |parts[1..]| && 0 <= i < |parts[1..][k]| ensures parts[1..][k][i] != sep[p] {
          assert parts[1..][k] == parts[k + 1];
        }
        SplitJoin(parts[1..], sep, p);
      }
      SplitCons(a, sep, b, p);
    }
  }
}

=== FILE: thai_digits.dfy ===
/**
 * `convert_thai_digits_to_arabic`: the translation table that rewrites the
 * Thai digits ๐..๙ into 0..9 and leaves every other character alone.
 */
module ThaiDigits {
  import opened Options
  import opened Text

  const ThaiDigitChars: string := "๐๑๒๓๔๕๖๗๘๙"
  const ArabicDigitChars: string := "0123456789"

  /** The position of `c` in `table`, searching from `from`. */
  function IndexIn(table: string, c: char, from: nat): (r: Option<nat>)
    requires from <= |table|
    ensures r.Some? ==> from <= r.value < |table| && table[r.value] == c
    ensures r.None? ==> forall i :: from <= i < |table| ==> table[i] != c
    decreases |table| - from
  {
    if from == |table| then None
    else if table[from] == c then Some(from)
    else IndexIn(table, c, from + 1)
  }

  /** One entry of `str.maketrans(ThaiDigitChars, ArabicDigitChars)`, applied to `c`. */
  function Translate(c: char): (r: char)
    ensures IsThaiDigit(c) ==> r == ('0' as int + DigitValue(c)) as char
    ensures !IsThaiDigit(c) ==> r == c
  {
    match IndexIn(ThaiDigitChars, c, 0)
    case Some(i) => ArabicDigitChars[i]
    case None => c
  }

  /** `text.translate(...)`: each character translated on its own. */
  function ConvertThaiDigitsToArabic(text: string): (r: string)
    ensures |r| == |text|
    ensures forall i :: 0 <= i < |text| ==> r[i] == Translate(text[i])
  {
    if text == [] then [] else [Translate(text[0])] + ConvertThaiDigitsToArabic(text[1..])
  }

  /** Converting twice is converting once. */
  lemma ConvertIdempotent(text: string)
    ensures ConvertThaiDigitsToArabic(ConvertThaiDigitsToArabic(text)) == ConvertThaiDigitsToArabic(text)
  {
    var once := ConvertThaiDigitsToArabic(text);
    var twice := ConvertThaiDigitsToArabic(once);
    assert forall i :: 0 <= i < |once| ==> twice[i] == once[i];
  }

  /** A digit translates to a digit of the same value. */
  lemma DigitTranslated(c: char)
    requires IsDigit(c)
    ensures IsDigit(Translate(c)) && DigitValue(Translate(c)) == DigitValue(c)
  {
  }

  /** Converting a prefix gives the prefix of the conversion. */
  lemma ConvertPrefix(text: string, n: nat)
    requires n <= |text|
    ensures ConvertThaiDigitsToArabic(text)[..n] == ConvertThaiDigitsToArabic(text[..n])
  {
    var r, p := ConvertThaiDigitsToArabic(text), ConvertThaiDigitsToArabic(text[..n]);
    forall i | 0 <= i < n ensures r[i] == p[i] {
      assert text[..n][i] == text[i];
    }
  }

  /** A run of digits converts to a run of digits. */
  lemma ConvertDigits(digits: string)
    requires AllDigits(digits)
    ensures AllDigits(ConvertThaiDigitsToArabic(digits))
  {
    var r := ConvertThaiDigitsToArabic(digits);
    forall i | 0 <= i < |r| ensures IsDigit(r[i]) {
      DigitTranslated(digits[i]);
    }
  }

  /** A run of digits reads as the same number before and after conversion. */
  lemma {:induction false} ConvertKeepsValue(digits: string)
    requires AllDigits(digits)
    ensures AllDigits(ConvertThaiDigitsToArabic(digits))
    ensures DigitsValue(ConvertThaiDigitsToArabic(digits)) == DigitsValue(digits)
    decreases |digits|
  {
    var r := ConvertThaiDigitsToArabic(digits);
    ConvertDigits(digits);
    if digits != [] {
      var n := |digits| - 1;
      ConvertKeepsValue(digits[..n]);
      ConvertPrefix(digits, n);
      DigitTranslated(digits[n]);
      assert r[n] == Translate(digits[n]);
    }
  }
}
